=== FILE: README.md ===
# Steam Workshop notifications bot — a Dafny model of its core

The bot watches Steam Workshop mod pages and the Arma 3 SpotRep blog and
relays updates to Discord channels. This project models the parts of it
that decide what happens and proves properties of them:

- **the mod registry** (`modules/mod-manager.js`)
  - The mod map (URL to name, guild set and two timestamps) and the
    notification map (guild to channels, members and roles).
  - Both are JavaScript `Map`s, so their insertion order is modelled as
    `OrderedMaps.OrderedMap`.
  - The class `Registry.ModRegistry` holds both maps, the round-robin
    queue of mod URLs and the snapshots last written to the cache. Its
    methods are the `deleteAll`, `monitorMods`, `setNotifications`,
    `listMods` and cache-loading handlers, plus the `checkMod` tick.
  - The tick refills and pops the queue, makes the three-way timestamp
    decision (`Polling.Decide`), stamps the mod and produces the
    notification plan (`FanOut.ModFanOut`).
- **the SpotRep watcher** (`modules/spotrep-manager.js`): class
  `SpotRep.Watcher`, with the stored and saved `lastUpdate` and the check
  that broadcasts a new post to every subscribed guild.
- **the helpers of `modules/util.js`**
  - The chunker `splitString` (module `Chunker`), including the inputs on
    which its loop never ends.
  - The mention line, the year fix-up of Steam dates, the merge of mod
    rows, the `http://` rewrite and the changelog line-end normalisation
    (module `Text`).
- **the command layer of `index.js`**
  - The `messageCreate` routing (`Router.Route`).
  - The `monitor`, `notify` and `disable` handlers (module `Commands`).

Sends are not performed. A fan-out returns a `Plan`: the sequence of
(channel, text) messages it would send, and how it ended (completed, or
stopped at a guild). Everything the bot gets from outside is an argument:

- the clock;
- the scraped page time and the changelog and post texts, as
  `Result`s;
- the attachment rows;
- the resolved mention line of each guild (`notes`; a guild missing from
  it is one whose members or roles could not be fetched).

Timestamps are integers, and 0 is the "never checked" sentinel.

The model follows the code where it is quirky:

- The chunker does not consume the separator; it starts the next chunk.
  `"AAAA\r\nBBBB\r\nCCCC"` with size 9 gives `["AAAA", "\r\nBBBB",
  "\r\nCCCC"]` (`Chunker.KeepsSeparatorExample`).
- A mod guild without a subscription ends the whole fan-out. It is not
  skipped.
- A SpotRep post whose time equals the stored time counts as an update.
- A failed post fetch leaves `lastUpdate` advanced in memory, unsaved.

## Model

| member | source | states |
|---|---|---|
| Seqs.Without | modules/mod-manager.js:23 | `set.delete(x)` on a duplicate-free sequence: exactly the other elements remain and there are still no duplicates |
| Seqs.AddAllSpec | modules/mod-manager.js:71 | adding a list to a guild set gives the union, keeps the existing guilds first and in order, and adds no duplicates |
| Seqs.DedupSpec | modules/mod-manager.js:73 | `new Set(array)` has the same members as the array and no duplicates |
| Seqs.DedupOfNoDup | modules/mod-manager.js:96 | rebuilding a set from an array without duplicates gives that array back |
| Seqs.JoinSplit | index.js:190 | splitting on a character loses nothing: joining the pieces gives the text back |
| Seqs.SplitSingle | index.js:190-191 | splitting gives a single piece exactly when the text holds no separator |
| OrderedMaps.Get | modules/mod-manager.js:47 | `map.get`: present exactly for a stored key, with its value |
| OrderedMaps.Put | modules/mod-manager.js:85 | `map.set`: the value is replaced, an existing key keeps its place, a new key goes last |
| OrderedMaps.Delete | modules/mod-manager.js:15 | `map.delete`: the key leaves the entries and the order, nothing else changes |
| OrderedMaps.Entries | modules/mod-manager.js:130 | `Object.fromEntries(map)`: one pair per key, in key order, with its value |
| OrderedMaps.FromEntriesRoundTrip | modules/mod-manager.js:118-124 | loading the saved pairs rebuilds the same map, order included |
| Chunker.LastIndexOf | modules/util.js:160 | `lastIndexOf`: an occurrence of the pattern, and no later one; -1 only when there is none |
| Chunker.Cut | modules/util.js:160-161 | when the window holds a separator, the cut is at one and no later one lies wholly inside the window; otherwise it is `size - 1` |
| Chunker.Chunks | modules/util.js:157-170 | the chunks concatenate to the text, each is at most `size` long, with a non-empty separator every chunk but the last is shorter than `size`, and a text no longer than `size` is one chunk |
| Chunker.SplitString | modules/util.js:157-170 | the loop returns exactly `Chunks` of its input |
| Chunker.SeparatorStartsNextChunk | modules/util.js:163-165 | a cut on a separator leaves that separator at the start of the remaining text |
| Chunker.SizeZero | modules/util.js:157-170 | with size 0 only the empty text finishes, as the single chunk "" |
| Chunker.StuckAtZero | modules/util.js:159-166 | a cut at 0 pushes "" and leaves the text as it was, so the loop never ends |
| Chunker.SizeOneNeverTerminates | modules/util.js:159-166 | with size 1 and a non-empty separator, any longer text loops forever |
| Chunker.SeparatorOnlyAtStartStalls | modules/util.js:159-166 | a window whose only separator is at index 0 loops forever |
| Chunker.NoSeparatorTerminates | modules/util.js:159-166 | a text without the separator always finishes when size is at least 2 |
| Chunker.KeepsSeparatorExample | modules/util.js:163-165 | the worked example: the separators open the second and third chunks |
| Chunker.StallExample | modules/util.js:159-166 | "A\r\nBBBBBBBBBB" with size 9 never finishes |
| Text.NotificationString | modules/util.js:172-180 | the "no one" line exactly when there is no subscription or it has no members and no roles; otherwise "Notifying" with the members, then the roles |
| Text.FixYear | modules/util.js:62-67 | a four-token date gets the year as its third token; any other date is unchanged |
| Text.SplitJoin | modules/util.js:63-66 | joining space-free tokens and splitting again gives the tokens back |
| Text.LastModified | modules/util.js:53-78 | a missing stats element is an error; a parsed time after now is moved back one year, once |
| Text.MergeRows | modules/util.js:28-47 | no rows is an error; otherwise every link is a key, and a link's last row sets its name |
| Text.IndexOf | modules/util.js:10 | `indexOf`: the first occurrence, or -1 when there is none |
| Text.ToHttps | modules/util.js:10 | only the first `http://` becomes `https://`, and the text around it is kept |
| Text.ToHttpsFirstOnly | modules/util.js:10 | a second `http://` is left alone |
| Text.CrLfRoundTrip | modules/mod-manager.js:173 | turning each line feed into CR LF loses no text: undoing it gives the changelog back |
| Text.NormalizeChangelog | modules/mod-manager.js:170-174 | an empty changelog stays empty; otherwise every line feed is preceded by CR, and nothing else changes |
| FanOut.ChannelSends | modules/mod-manager.js:191-206 | every message goes to one of the listed channels |
| FanOut.PayloadIsText | modules/mod-manager.js:196-205 | skipping empty chunks loses no text: the unwrapped chunk messages join to the whole changelog |
| FanOut.OneChannel | modules/mod-manager.js:191-205 | a channel gets the header first, then the chunks, which carry the whole text |
| FanOut.HeaderSent | modules/mod-manager.js:191-195 | every listed channel receives the header |
| FanOut.ChannelMessages | modules/mod-manager.js:192-205 | the per-channel loop sends the header, then every non-empty chunk in backticks |
| FanOut.SendToChannels | modules/mod-manager.js:191-206 | the loop over the channels sends exactly `ChannelSends` |
| FanOut.RunModFanOut | modules/mod-manager.js:179-207 | the loop over the mod's guilds produces exactly the plan `ModFanOut` defines |
| FanOut.ModFanOutStopsAtMissing | modules/mod-manager.js:180-185 | the first guild without a subscription ends the fan-out, and only earlier guilds' channels receive anything |
| FanOut.ModFanOutReachesAll | modules/mod-manager.js:179-207 | when every guild has a subscription and mentions, the fan-out completes and every channel gets its guild's header |
| FanOut.RunSpotRepFanOut | modules/spotrep-manager.js:54-85 | the loop over the notification map produces exactly the plan `SpotRepFanOut` defines |
| FanOut.SpotRepCompletes | modules/spotrep-manager.js:54-85 | a failed mention line does not stop the broadcast: it always completes |
| FanOut.SpotRepReachesAll | modules/spotrep-manager.js:55-71 | every channel of every guild with a mention line receives the header |
| FanOut.SpotRepOnlyNoted | modules/spotrep-manager.js:57-62 | a guild whose mention line failed is skipped: no message goes to its channels |
| Pruning.PruneKeysSpec | modules/mod-manager.js:22-27 | the loop drops the guild from each visited mod and deletes mods left empty; unvisited mods are untouched |
| Pruning.RemoveGuildSpec | modules/mod-manager.js:20-28 | afterwards no mod lists the guild, a mod stays exactly when it has another guild, the key order is the old one with only the emptied mods removed, and no stored mod has an empty guild set |
| Pruning.PruneKeysOrder | modules/mod-manager.js:22-27 | the loop never moves or adds a key: the order afterwards is the old order without the mods it emptied |
| Pruning.RemoveGuildKeepsOthers | modules/mod-manager.js:20-28 | a mod that does not list the guild is left exactly as it was |
| Merging.Merged | modules/mod-manager.js:70-78 | a tracked mod keeps its name and timestamps and gains the guilds; a new mod gets its name, its guilds and both timestamps at the sentinel |
| Merging.MergeKeysSpec | modules/mod-manager.js:69-79 | the loop merges every incoming key and leaves other mods alone |
| Merging.MonitoredSpec | modules/mod-manager.js:66-82 | `monitorMods`: the key order is the cleared map's, followed by the incoming keys it did not hold, in the incoming order; each entry is merged as above |
| Merging.MergeKeysOrder | modules/mod-manager.js:69-79 | the merge loop only appends: stored keys keep their place and the new incoming keys follow in their own order |
| Merging.MonitorReplaces | modules/mod-manager.js:66-82 | when each incoming entry is for the guild alone, the mods listing the guild afterwards are exactly the incoming keys |
| Merging.MonitoredWellFormed | modules/mod-manager.js:66-82 | no mod is left with an empty or duplicated guild set |
| Merging.MonitorResetsSoleMod | modules/mod-manager.js:67-78 | re-uploading a mod that only this guild monitors resets both its timestamps to the sentinel |
| Polling.Refill | modules/mod-manager.js:144 | an empty queue is refilled with every URL in map order; otherwise it is kept |
| Polling.RoundRobin | modules/mod-manager.js:143-146 | from an empty queue, as many ticks as there are mods visit each URL once, in order, and leave the queue empty |
| Polling.Decide | modules/mod-manager.js:155-163 | notify exactly when the stored time is set and the scraped time is strictly later; a never-checked mod takes the scraped time, otherwise the later of the two is kept |
| Polling.DecideOnce | modules/mod-manager.js:159-163 | deciding again on the same page time never notifies |
| Views.ListedFrom | modules/mod-manager.js:30-40 | every listed mod has the guild, and every mod with the guild is listed |
| Views.ListedFromAppend | modules/mod-manager.js:30-40 | the listing follows the key order: listing two runs of keys in turn is listing each and concatenating |
| Views.ListedFromOne | modules/mod-manager.js:34-36 | one key is listed once, exactly when its mod carries the guild, so together with `ListedFromAppend` the listing is the guild's mods in key order, each once |
| Views.RestoreGuilds | modules/mod-manager.js:95-97 | each loaded mod keeps its key, name and timestamps, and its guild array becomes a set of the same guilds, none twice |
| Views.SaveLoadRoundTrip | modules/mod-manager.js:92-116 | saving the mod map and loading it back (`LoadedMods`) gives the same map, guild sets and order included |
| Registry.ChangelogText | modules/mod-manager.js:170-178 | a fetched changelog is sent normalised: every line feed is preceded by CR, it is empty only when the fetched text is, and undoing the CR LF rewrite gives the fetched text back; a failed fetch sends the error line |
| Registry.AddGuilds | modules/mod-manager.js:71 | the `forEach(add)` loop computes the union of the guild sets |
| Registry.ModRegistry.constructor | modules/mod-manager.js:8-11 | the registry starts with empty maps, an empty queue and nothing saved |
| Registry.ModRegistry.NotificationsFor | modules/mod-manager.js:46-50 | the guild's stored subscription, or absent |
| Registry.ModRegistry.DeleteGuild | modules/mod-manager.js:20-28 | the mod map becomes `RemoveGuild` of the old one; nothing else changes and nothing is saved |
| Registry.ModRegistry.DeleteAll | modules/mod-manager.js:58-64 | the guild's subscription and the guild's mod references are removed, and both maps are saved |
| Registry.ModRegistry.MonitorMods | modules/mod-manager.js:66-82 | the mod map becomes `Monitored` of the old one, and it is saved |
| Registry.ModRegistry.SetNotifications | modules/mod-manager.js:84-90 | the guild's subscription is replaced as a whole, other guilds keep theirs, and the notification map is saved |
| Registry.ModRegistry.ListMods | modules/mod-manager.js:30-40 | the loop returns exactly `Listed`: the guild's mods, in map order |
| Registry.ModRegistry.LoadMods | modules/mod-manager.js:92-101 | the mod map becomes the loaded one; nothing else changes |
| Registry.ModRegistry.LoadNotifications | modules/mod-manager.js:118-124 | the notification map becomes the loaded one; nothing else changes |
| Registry.ModRegistry.TakeUrl | modules/mod-manager.js:143-146 | an empty queue is refilled, and exactly the URL at its front is taken |
| Registry.ModRegistry.CheckMod | modules/mod-manager.js:136-217 | with no mods nothing changes; a URL gone from the map is dropped, always with the `NotFound` result; a failed scrape leaves the mod alone; otherwise the decision is stored, lastChecked becomes now, the map is saved, and a notified mod's guilds get the fan-out |
| SpotRep.IsUpdate | modules/spotrep-manager.js:38 | a feed time counts as an update unless it is strictly before the stored time, or before now when nothing is stored |
| SpotRep.NotTwice | modules/spotrep-manager.js:38-44 | once the check time is stored, an earlier post is not broadcast again |
| SpotRep.Watcher.constructor | modules/spotrep-manager.js:9 | nothing stored and nothing saved |
| SpotRep.Watcher.Load | modules/spotrep-manager.js:11-17 | the cached time replaces the stored one |
| SpotRep.Watcher.CheckSpotRep | modules/spotrep-manager.js:29-88 | a feed failure or an older post changes nothing; an update stores now; a post failure ends unsaved with no sends; otherwise every subscribed guild gets the broadcast and the time is saved |
| Router.Route | index.js:178-243 | ignored exactly when the message is from a bot or the bot is not the first mention; otherwise: no second word gets the "no command" reply; `id` runs for anyone; any other word from a non-admin gets the admin error; an admin's `version` and `logs` run anywhere and the other commands outside a DM; any other word, and in a DM any other command, gets the "unknown command" reply; nothing else runs |
| Router.NoCommandIffNoSpace | index.js:190-195 | the "no command" reply comes exactly when the text has no space |
| Router.NonAdminRefused | index.js:197-208 | every command but `id` from a non-admin gets the admin error |
| Router.DmCommands | index.js:210-223 | `id`, `version` and `logs` run whether or not the message is a DM |
| Commands.Lower | index.js:73 | each character of the content type is lower-cased |
| Commands.ValidateAttachments | index.js:64-82 | no attachments is one error; any attachment whose type lacks "html" is the other error; otherwise no error |
| Commands.Tag | index.js:90-92 | every parsed mod is tagged with the guild alone, with its name kept |
| Commands.Replies | index.js:94-98 | one reply per attachment, in order: "Parsed N mods." or the error |
| Commands.LastAttachmentWins | index.js:86-101 | since each attachment replaces the guild's list, the last parsed attachment decides which mods list the guild |
| Commands.Monitor | index.js:61-102 | invalid attachments give their error and change neither the mod map nor its saved copy; otherwise each attachment is merged in turn and answered, and the mod map is saved once any attachment parses |
| Commands.MonitorEach | index.js:86-101 | the loop over the attachments produces `MonitorAll` and `Replies`; the saved mod map is the final one once any attachment parses, and untouched otherwise |
| Commands.BuildSubscription | index.js:107-131 | the channels and roles in mention order, and the members without the bot's own id |
| Commands.Notify | index.js:104-136 | the guild's subscription becomes the built one, the notification map is saved, mods and queue are untouched, and the reply gives the member, role and channel counts |
| Commands.Disable | index.js:149-155 | the guild's subscription is gone, the guild is removed from every mod, both maps are saved, the queue is untouched, and the reply confirms |

## Left out

- HTTP downloads, file reads and writes, and the cache files. Their
  results are arguments. A save is a snapshot field written at the point
  where the code emits its save event.
- HTML parsing and html-to-text conversion. The rows of a mod list, the
  date text of a mod page, and the changelog and post texts are
  arguments.
- Date parsing, formatting and time zones. Times are integers. The
  current year, the date parser and "one year earlier" are arguments of
  `Text.LastModified`.
- The Discord client: sending, channel lookup, and member and role
  fetching. A channel missing from the client's cache, which makes `send`
  throw, is not modelled.
- The scheduler, the event emitter and the asynchronous interleaving.
  Handlers are direct method calls, and attachments are processed one
  after the other, in order.
  - `checkMod` issues its save before the changelog fan-out resolves. The
    model computes the plan and the save in one step.
  - Changes to the mod's guild set while a fan-out is pending are not
    modelled.
- The `id`, `version`, `info` and `logs` replies and their formatting.
  Configuration loading is left out, as is the changelog URL built with
  `new URL(...)`. `Router.Route` only says which of them runs.
- `listNotifications` is not modelled as a handler: `SpotRep.Watcher.CheckSpotRep`
  takes the notification map directly.
- `listChannelsForGuildId` is not modelled: no code shown here emits it,
  and it reads a field that stored subscriptions do not have.
- The logger and `modules/cache-manager.js` are not part of this model.
- Key order of plain JavaScript objects with integer-like keys (they
  enumerate first) is not modelled. Mod keys are URLs.
- Chunker.SplitString: requires that the chunking loop ends
  (`Chunker.Terminates`). On the other inputs the code spins forever, and
  the model has no result. The fan-outs end their plan with `Hung` at the
  guild where that would happen. The lemmas above say which inputs those
  are; size 0 is one of them, except for the empty text
  (`Chunker.SizeZero`).
- Chunker.Chunks: same precondition as `SplitString`, for the same reason.
- Chunker.Chunks and Chunker.SplitString count characters as Unicode code
  points. JavaScript's `length`, `slice` and `lastIndexOf` count UTF-16
  units. For text with characters outside the Basic Multilingual Plane,
  such as emoji, the code's cut positions and its 1900 bound differ from
  the model's, and the code can split a surrogate pair. The same holds
  for `Text.IndexOf` and `Text.ToHttps`.
- Commands.Lower: only ASCII letters are lower-cased. Unicode case
  mapping is not modelled.
- Commands.ValidateAttachments: an attachment without a content type,
  which makes the code throw, is not modelled.
- Router.Route: a message where the bot is mentioned but no user is
  (`users.first()` undefined) is treated as ignored. In the code the
  access throws inside the async `messageCreate` listener, and nothing
  catches the resulting rejection.
- FanOut.ModFanOut: a guild whose mention line cannot be built ends the
  plan with `MentionFailed`, and the registry goes on ticking. In the code
  the changelog chain of `checkMod` (modules/mod-manager.js:167-207) is
  not returned to the outer chain, so the `.catch` at
  modules/mod-manager.js:216 does not cover it. A rejected
  `buildNotificationString` (modules/util.js:172-180, for example for a
  member who left the guild) is then an unhandled rejection. No handler
  for it is installed, and Node's default (since version 15) ends the
  process. The model does not capture that process exit. The SpotRep
  watcher catches the same failure (modules/spotrep-manager.js:58-62).
- Router.Route: `isDM` stands for the code's test
  `message.channel.type === 'DM'` (index.js:219), not for whether the
  channel is a DM. Under discord.js 14, which index.js:1 imports from,
  `channel.type` is a number, so that test never holds. The DM
  restriction is then dead code, and an admin's `info`, `monitor`,
  `notify` and `disable` run in DMs too. The model keeps the restriction
  as written and does not model the library's channel types.
- Text.NotificationString: the mention strings are given already
  resolved. A failed fetch is a guild missing from `notes` in the
  fan-outs.

=== FILE: chunker.dfy ===
/** The text chunker `splitString` (modules/util.js): while the text is
    longer than `size`, cut it at the last occurrence of the separator that
    lies wholly inside the first `size` characters (or, when there is none,
    at `size - 1`) and continue with the rest, which begins with the
    separator. The loop only moves forward when the cut index is positive,
    so `Terminates` is part of the model. */
module Chunker {

  /** `p` occurs in `s` starting at index `i`. */
  predicate OccursAt(s: string, p: string, i: int) {
    0 <= i && i + |p| <= |s| && s[i..i + |p|] == p
  }

  /** `s.lastIndexOf(p)`: the last index at which `p` occurs, or -1. For an
      empty `p` this is `|s|`, as in JavaScript. */
  function LastIndexOf(s: string, p: string): (r: int)
    ensures -1 <= r <= |s|
    ensures r >= 0 ==> OccursAt(s, p, r)
    ensures forall j :: r < j <= |s| ==> !OccursAt(s, p, j)
  {
    LastIndexFrom(s, p, |s|)
  }

  function LastIndexFrom(s: string, p: string, i: nat): (r: int)
    requires i <= |s|
    ensures -1 <= r <= i
    ensures r >= 0 ==> OccursAt(s, p, r)
    ensures forall j :: r < j <= i ==> !OccursAt(s, p, j)
  {
    if OccursAt(s, p, i) then i
    else if i == 0 then -1
    else LastIndexFrom(s, p, i - 1)
  }

  /** Where `splitString` cuts a text longer than `size`. */
  function Cut(s: string, size: nat, p: string): (r: nat)
    requires 1 <= size < |s|
    ensures r <= size
    ensures p != "" ==> r < size
    // the cut is the last separator inside the window ...
    ensures OccursAt(s, p, r) && r + |p| <= size ==>
              forall j :: r < j && j + |p| <= size ==> !OccursAt(s, p, j)
    // ... or, when the window holds none, the hard cut at size - 1
    ensures (forall j :: 0 <= j && j + |p| <= size ==> !OccursAt(s, p, j)) ==> r == size - 1
    // when the window holds a separator, the cut is at one
    ensures (exists j :: 0 <= j && j + |p| <= size && OccursAt(s, p, j)) ==> OccursAt(s, p, r) && r + |p| <= size
  {
    WindowOccurrences(s, size, p);
    var l := LastIndexOf(s[..size], p);
    assert l >= 0 ==> OccursAt(s[..size], p, l) && l + |p| <= size;
    if l == -1 then size - 1 else l
  }

  /** Inside the first `size` characters, the window and the text agree on
      where the separator occurs. */
  lemma WindowOccurrences(s: string, size: nat, p: string)
    requires size <= |s|
    ensures forall j :: 0 <= j && j + |p| <= size ==> (OccursAt(s[..size], p, j) <==> OccursAt(s, p, j))
    ensures forall j :: j + |p| > size ==> !OccursAt(s[..size], p, j)
  {
    forall j | 0 <= j && j + |p| <= size ensures OccursAt(s[..size], p, j) <==> OccursAt(s, p, j) {
      assert s[..size][j..j + |p|] == s[j..j + |p|];
    }
  }

  /** The loop of `splitString` stops: every cut it makes is at a positive
      index, so each round shortens the remaining text. */
  predicate Terminates(s: string, size: nat, p: string)
    decreases |s|
  {
    |s| <= size || (size >= 1 && Cut(s, size, p) > 0 && Terminates(s[Cut(s, size, p)..], size, p))
  }

  /** The chunks joined back together. */
  function Concat(chunks: seq<string>): string {
    if chunks == [] then "" else chunks[0] + Concat(chunks[1..])
  }

  /** What `splitString(s, size, p)` returns, when it returns. */
  function Chunks(s: string, size: nat, p: string): (r: seq<string>)
    requires Terminates(s, size, p)
    ensures |r| >= 1
    ensures Concat(r) == s
    ensures forall i :: 0 <= i < |r| ==> |r[i]| <= size
    ensures p != "" ==> forall i :: 0 <= i < |r| - 1 ==> |r[i]| < size
    ensures |s| <= size ==> r == [s]
    decreases |s|
  {
    if |s| <= size then [s]
    else
      var c := Cut(s, size, p);
      var rest := Chunks(s[c..], size, p);
      assert s[..c] + s[c..] == s;
      [s[..c]] + rest
  }

  /** `splitString` itself: the loop slicing the text and pushing chunks. */
  method SplitString(s: string, size: nat, p: string) returns (chunks: seq<string>)
    requires Terminates(s, size, p)
    ensures chunks == Chunks(s, size, p)
  {
    chunks := [];
    var rest := s;
    ghost var all := Chunks(s, size, p);
    while |rest| > size
      invariant Terminates(rest, size, p)
      invariant chunks + Chunks(rest, size, p) == all
      decreases |rest|
    {
      var cut := LastIndexOf(rest[..size], p);
      if cut == -1 {
        cut := size - 1;
      }
      LoopStep(chunks, rest, size, p, cut);
      chunks := chunks + [rest[..cut]];
      rest := rest[cut..];
    }
    chunks := chunks + [rest];
  }

  lemma LoopStep(chunks: seq<string>, s: string, size: nat, p: string, cut: int)
    requires 1 <= size < |s| && Terminates(s, size, p)
    requires cut == (if LastIndexOf(s[..size], p) == -1 then size - 1 else LastIndexOf(s[..size], p))
    ensures 0 < cut < |s| && Terminates(s[cut..], size, p)
    ensures chunks + Chunks(s, size, p) == (chunks + [s[..cut]]) + Chunks(s[cut..], size, p)
  {
    ChunksStep(s, size, p, cut);
  }

  /** One round of the loop: the first chunk, then the chunks of the rest. */
  lemma ChunksStep(s: string, size: nat, p: string, cut: int)
    requires 1 <= size < |s| && Terminates(s, size, p)
    requires cut == (if LastIndexOf(s[..size], p) == -1 then size - 1 else LastIndexOf(s[..size], p))
    ensures 0 < cut < |s| && cut == Cut(s, size, p)
    ensures Terminates(s[cut..], size, p)
    ensures Chunks(s, size, p) == [s[..cut]] + Chunks(s[cut..], size, p)
  {
  }

  /** With a window of size 0, only the empty text finishes; it comes back
      as the one chunk "". Any other text is cut at -1, which pushes all but
      its last character and then that character's empty prefix forever. */
  lemma SizeZero(s: string, p: string)
    ensures Terminates(s, 0, p) <==> s == ""
    ensures s == "" ==> Chunks(s, 0, p) == [""]
  {
  }

  /** When the cut lands on a separator, the separator is kept: it is the
      start of the text that remains. */
  lemma SeparatorStartsNextChunk(s: string, size: nat, p: string)
    requires 1 <= size < |s|
    requires exists j :: 0 <= j && j + |p| <= size && OccursAt(s, p, j)
    ensures OccursAt(s[Cut(s, size, p)..], p, 0)
  {
    var w := s[..size];
    WindowOccurrences(s, size, p);
    var j :| 0 <= j && j + |p| <= size && OccursAt(s, p, j);
    assert OccursAt(w, p, j);
    var c := Cut(s, size, p);
    assert c == LastIndexOf(w, p);
    assert OccursAt(w, p, c);
    assert OccursAt(s, p, c);
    assert s[c..][0..|p|] == s[c..c + |p|];
  }

  /** A cut at index 0 leaves the text as it was: the loop pushes "" and
      starts the same round again, forever. */
  lemma StuckAtZero(s: string, size: nat, p: string)
    requires 1 <= size < |s| && Cut(s, size, p) == 0
    ensures s[..Cut(s, size, p)] == "" && s[Cut(s, size, p)..] == s
    ensures !Terminates(s, size, p)
  {
  }

  /** With a one-character window and a non-empty separator every cut is at
      index 0, so any text longer than one character never finishes. */
  lemma SizeOneNeverTerminates(s: string, p: string)
    requires |s| > 1 && p != ""
    ensures !Terminates(s, 1, p)
  {
    assert Cut(s, 1, p) == 0;
  }

  /** Once a cut has landed on a separator, the rest begins with it; if the
      next window holds no other occurrence, the loop stalls. */
  lemma SeparatorOnlyAtStartStalls(s: string, size: nat, p: string)
    requires 1 <= size < |s| && p != "" && |p| <= size
    requires OccursAt(s, p, 0)
    requires forall j :: 0 < j && j + |p| <= size ==> !OccursAt(s, p, j)
    ensures !Terminates(s, size, p)
  {
    var w := s[..size];
    WindowOccurrences(s, size, p);
    assert OccursAt(w, p, 0);
    assert LastIndexOf(w, p) == 0;
    StuckAtZero(s, size, p);
  }

  /** A text without the separator, cut with a window of at least two
      characters, always finishes: every hard cut is at `size - 1 > 0`. */
  lemma {:induction false} NoSeparatorTerminates(s: string, size: nat, p: string)
    requires size >= 2
    requires forall j :: !OccursAt(s, p, j)
    ensures Terminates(s, size, p)
    decreases |s|
  {
    if |s| > size {
      var c := Cut(s, size, p);
      assert c == size - 1;
      forall j ensures !OccursAt(s[c..], p, j) {
        SuffixOccurrence(s, p, c, j);
      }
      NoSeparatorTerminates(s[c..], size, p);
    }
  }

  lemma SuffixOccurrence(s: string, p: string, c: nat, j: int)
    requires c <= |s|
    ensures OccursAt(s[c..], p, j) ==> OccursAt(s, p, c + j)
  {
    if OccursAt(s[c..], p, j) {
      assert s[c..][j..j + |p|] == s[c + j..c + j + |p|];
    }
  }

  /** A position where the text does not start with the separator's first
      character holds no occurrence. */
  lemma NotAt(s: string, p: string, j: int)
    requires p != "" && 0 <= j
    requires j + |p| > |s| || s[j] != p[0]
    ensures !OccursAt(s, p, j)
  {
    if j + |p| <= |s| {
      assert s[j..j + |p|][0] == s[j];
    }
  }

  /** The example of the code's behaviour: the separator opens the next
      chunk instead of being dropped. */
  lemma KeepsSeparatorExample()
    ensures Terminates("AAAA\r\nBBBB\r\nCCCC", 9, "\r\n")
    ensures Chunks("AAAA\r\nBBBB\r\nCCCC", 9, "\r\n") == ["AAAA", "\r\nBBBB", "\r\nCCCC"]
  {
    var s, p := "AAAA\r\nBBBB\r\nCCCC", "\r\n";
    var w := s[..9];
    assert w == "AAAA\r\nBBB";
    assert w[4..6] == p;
    forall j | 4 < j ensures !OccursAt(w, p, j) {
      NotAt(w, p, j);
    }
    assert Cut(s, 9, p) == 4;
    var s1 := s[4..];
    assert s1 == "\r\nBBBB\r\nCCCC";
    var w1 := s1[..9];
    assert w1 == "\r\nBBBB\r\nC";
    assert w1[6..8] == p;
    forall j | 6 < j ensures !OccursAt(w1, p, j) {
      NotAt(w1, p, j);
    }
    assert OccursAt(w1, p, 6);
    assert LastIndexOf(w1, p) == 6;
    assert Cut(s1, 9, p) == 6;
    var s2 := s1[6..];
    assert s2 == "\r\nCCCC";
    assert s[..4] == "AAAA" && s1[..6] == "\r\nBBBB";
    assert Terminates(s1, 9, p);
    ChunksStep(s, 9, p, 4);
    ChunksStep(s1, 9, p, 6);
  }

  /** The other stalling case: after the first cut, the window starts with
      the separator and holds no other. */
  lemma StallExample()
    ensures !Terminates("A\r\nBBBBBBBBBB", 9, "\r\n")
  {
    var s, p := "A\r\nBBBBBBBBBB", "\r\n";
    var w := s[..9];
    assert w == "A\r\nBBBBBB";
    assert w[1..3] == p;
    forall j | 1 < j ensures !OccursAt(w, p, j) {
      NotAt(w, p, j);
    }
    assert Cut(s, 9, p) == 1;
    var s1 := s[1..];
    assert s1 == "\r\nBBBBBBBBBB";
    assert s1[0..2] == p;
    forall j | 0 < j && j + |p| <= 9 ensures !OccursAt(s1, p, j) {
      NotAt(s1, p, j);
    }
    SeparatorOnlyAtStartStalls(s1, 9, p);
  }
}

=== FILE: commands.dfy ===
/** The command handlers of index.js that change the registry: `monitor`
    (check the attachments, then merge the mods of each uploaded list),
    `notify` (build and store the guild's subscription) and `disable`. The
    downloads and HTML parsing of the attachments are inputs: one outcome
    per attachment, the rows of its mod table or an error message. */
module Commands {
  import opened Seqs
  import opened Outcomes
  import opened Records
  import opened OrderedMaps
  import opened Text
  import opened Merging
  import opened Registry

  const NoAttachment: string := "Error: No attachment found."
  const NotHtml: string := "Error: HTML attachment expected."

  /** ASCII lower case. */
  function LowerChar(c: char): (r: char)
    ensures 'A' <= c <= 'Z' ==> r as int == c as int + 32
    ensures !('A' <= c <= 'Z') ==> r == c
  {
    if 'A' <= c <= 'Z' then (c as int + 32) as char else c
  }

  function Lower(s: string): (r: string)
    ensures |r| == |s| && forall i :: 0 <= i < |s| ==> r[i] == LowerChar(s[i])
  {
    seq(|s|, i requires 0 <= i < |s| => LowerChar(s[i]))
  }

  /** `contentType.toLowerCase().includes('html')`. */
  predicate IsHtml(contentType: string) {
    IndexOf(Lower(contentType), "html") >= 0
  }

  /** The attachment checks of `monitor`, which read nothing: no
      attachment, or any attachment whose content type does not mention
      html, is an error. */
  method ValidateAttachments(types: seq<string>) returns (err: Option<string>)
    ensures err == Some(NoAttachment) <==> types == []
    ensures err == Some(NotHtml) <==> types != [] && exists i :: 0 <= i < |types| && !IsHtml(types[i])
    ensures err.None? <==> types != [] && forall i :: 0 <= i < |types| ==> IsHtml(types[i])
  {
    if |types| == 0 {
      return Some(NoAttachment);
    }
    var invalid := false;
    for i := 0 to |types|
      invariant invalid <==> exists j :: 0 <= j < i && !IsHtml(types[j])
    {
      if !IsHtml(types[i]) {
        invalid := true;
      }
    }
    if invalid {
      return Some(NotHtml);
    }
    return None;
  }

  /** Every parsed mod tagged with the guild (`mods[mod]['guilds'] =
      [guildId]`). */
  function Tag(rows: OrderedMap<string>, g: string): (r: OrderedMap<NewMod>)
    requires rows.Valid()
    ensures r.Valid() && r.keys == rows.keys
    ensures forall k :: k in r.entries <==> k in rows.entries
    ensures forall k :: k in r.entries ==> r.entries[k] == NewMod(rows.entries[k], [g])
  {
    OrderedMap(rows.keys, map k | k in rows.entries :: NewMod(rows.entries[k], [g]))
  }

  /** What one attachment yields: the merged rows, or the error. */
  function Parsed(outcome: Result<seq<(string, string)>>): (r: Result<OrderedMap<string>>)
    ensures r.Ok? ==> r.value.Valid()
  {
    match outcome
    case Err(msg) => Err(msg)
    case Ok(rows) => MergeRows(rows)
  }

  /** The reply to one attachment. */
  function AttachmentReply(outcome: Result<seq<(string, string)>>): string {
    match Parsed(outcome)
    case Err(msg) => "Error: " + msg
    case Ok(mods) => "Parsed " + NatToString(|mods.keys|) + " mods."
  }

  /** An attachment parses exactly when it was read and holds a row. */
  predicate Parses(outcome: Result<seq<(string, string)>>)
    ensures Parses(outcome) <==> Parsed(outcome).Ok?
  {
    outcome.Ok? && outcome.value != []
  }

  /** Some attachment parses. */
  predicate AnyParsed(outcomes: seq<Result<seq<(string, string)>>>) {
    exists i :: 0 <= i < |outcomes| && Parses(outcomes[i])
  }

  lemma AnyParsedStep(outcomes: seq<Result<seq<(string, string)>>>, i: nat)
    requires i < |outcomes|
    ensures AnyParsed(outcomes[..i + 1]) <==> AnyParsed(outcomes[..i]) || Parses(outcomes[i])
  {
    var a, b := outcomes[..i + 1], outcomes[..i];
    assert a[i] == outcomes[i];
    assert forall j :: 0 <= j < i ==> a[j] == b[j];
  }

  /** The replies to the attachments, in order. */
  function Replies(outcomes: seq<Result<seq<(string, string)>>>): (r: seq<string>)
    ensures |r| == |outcomes| && forall i :: 0 <= i < |outcomes| ==> r[i] == AttachmentReply(outcomes[i])
  {
    if outcomes == [] then []
    else Replies(outcomes[..|outcomes| - 1]) + [AttachmentReply(outcomes[|outcomes| - 1])]
  }

  /** The mod map after the attachments, in order: each attachment that
      parses runs its own `monitorMods` for the guild. */
  function MonitorAll(mods: OrderedMap<Mod>, outcomes: seq<Result<seq<(string, string)>>>, g: string): (r: OrderedMap<Mod>)
    requires mods.Valid()
    ensures r.Valid()
  {
    if outcomes == [] then mods
    else
      var before := MonitorAll(mods, outcomes[..|outcomes| - 1], g);
      match Parsed(outcomes[|outcomes| - 1])
      case Err(_) => before
      case Ok(rows) => Monitored(before, Tag(rows, g), g)
  }

  lemma MonitorAllStep(mods: OrderedMap<Mod>, outcomes: seq<Result<seq<(string, string)>>>, i: nat, g: string)
    requires mods.Valid() && i < |outcomes|
    ensures var before := MonitorAll(mods, outcomes[..i], g);
            var p := Parsed(outcomes[i]);
              MonitorAll(mods, outcomes[..i + 1], g) == (if p.Ok? then Monitored(before, Tag(p.value, g), g) else before)
  {
    assert outcomes[..i + 1][..i] == outcomes[..i];
  }

  /** Each attachment replaces the guild's list: when the last attachment
      parses, the mods listing the guild afterwards are exactly its links,
      whatever the earlier attachments held. */
  lemma LastAttachmentWins(mods: OrderedMap<Mod>, outcomes: seq<Result<seq<(string, string)>>>, g: string)
    requires mods.Valid() && outcomes != [] && Parsed(outcomes[|outcomes| - 1]).Ok?
    ensures var r := MonitorAll(mods, outcomes, g);
            var last := Parsed(outcomes[|outcomes| - 1]).value;
              forall k :: (k in r.entries && g in r.entries[k].guilds) <==> k in last.entries
  {
    var last := Parsed(outcomes[|outcomes| - 1]).value;
    MonitorReplaces(MonitorAll(mods, outcomes[..|outcomes| - 1], g), Tag(last, g), g);
  }

  /** The `monitor` handler. `types` are the attachments' content types
      and `outcomes` what downloading and parsing each of them gave. */
  method Monitor(reg: ModRegistry, g: string, types: seq<string>, outcomes: seq<Result<seq<(string, string)>>>)
    returns (replies: seq<string>)
    requires reg.Valid() && |outcomes| == |types|
    modifies reg
    ensures reg.Valid()
    ensures reg.subs == old(reg.subs) && reg.savedSubs == old(reg.savedSubs) && reg.queue == old(reg.queue)
    ensures types == [] ==> replies == [NoAttachment] && reg.mods == old(reg.mods) && reg.savedMods == old(reg.savedMods)
    ensures (exists i :: 0 <= i < |types| && !IsHtml(types[i])) ==>
              replies == [NotHtml] && reg.mods == old(reg.mods) && reg.savedMods == old(reg.savedMods)
    ensures types != [] && (forall i :: 0 <= i < |types| ==> IsHtml(types[i])) ==>
              reg.mods == MonitorAll(old(reg.mods), outcomes, g) && replies == Replies(outcomes) &&
              (AnyParsed(outcomes) ==> reg.savedMods == Entries(reg.mods)) &&
              (!AnyParsed(outcomes) ==> reg.savedMods == old(reg.savedMods))
  {
    var err := ValidateAttachments(types);
    if err.Some? {
      return [err.value];
    }
    replies := MonitorEach(reg, g, outcomes);
  }

  /** The attachments of a valid `monitor` command, one after the other. */
  method MonitorEach(reg: ModRegistry, g: string, outcomes: seq<Result<seq<(string, string)>>>)
    returns (replies: seq<string>)
    requires reg.Valid()
    modifies reg
    ensures reg.Valid()
    ensures reg.subs == old(reg.subs) && reg.savedSubs == old(reg.savedSubs) && reg.queue == old(reg.queue)
    ensures reg.mods == MonitorAll(old(reg.mods), outcomes, g)
    ensures replies == Replies(outcomes)
    // every attachment that parses saves the mod map
    ensures AnyParsed(outcomes) ==> reg.savedMods == Entries(reg.mods)
    ensures !AnyParsed(outcomes) ==> reg.savedMods == old(reg.savedMods)
  {
    ghost var start := reg.mods;
    replies := [];
    for i := 0 to |outcomes|
      invariant reg.Valid()
      invariant reg.subs == old(reg.subs) && reg.savedSubs == old(reg.savedSubs) && reg.queue == old(reg.queue)
      invariant reg.mods == MonitorAll(start, outcomes[..i], g)
      invariant replies == Replies(outcomes[..i])
      invariant AnyParsed(outcomes[..i]) ==> reg.savedMods == Entries(reg.mods)
      invariant !AnyParsed(outcomes[..i]) ==> reg.savedMods == old(reg.savedMods)
    {
      MonitorAllStep(start, outcomes, i, g);
      var parsed := Parsed(outcomes[i]);
      if parsed.Ok? {
        reg.MonitorMods(Tag(parsed.value, g), g);
      }
      assert outcomes[..i + 1][..i] == outcomes[..i];
      AnyParsedStep(outcomes, i);
      replies := replies + [AttachmentReply(outcomes[i])];
    }
    assert outcomes[..|outcomes|] == outcomes;
  }

  /** The subscription `notify` builds from the mentions, each list in
      mention order; the bot's own mention is not a member to notify. */
  method BuildSubscription(channels: seq<string>, members: seq<string>, roles: seq<string>, botId: string)
    returns (sub: Sub)
    ensures sub.channelIds == channels && sub.roleIds == roles
    ensures sub.memberIds == Without(members, botId)
    ensures botId !in sub.memberIds && forall m :: m in members && m != botId ==> m in sub.memberIds
  {
    var channelIds := [];
    for i := 0 to |channels|
      invariant channelIds == channels[..i]
    {
      channelIds := channelIds + [channels[i]];
    }
    var memberIds := [];
    for i := 0 to |members|
      invariant memberIds + Without(members[i..], botId) == Without(members, botId)
    {
      assert members[i..][1..] == members[i + 1..];
      if members[i] != botId {
        memberIds := memberIds + [members[i]];
      }
    }
    var roleIds := [];
    for i := 0 to |roles|
      invariant roleIds == roles[..i]
    {
      roleIds := roleIds + [roles[i]];
    }
    assert channels[..|channels|] == channels && roles[..|roles|] == roles && members[|members|..] == [];
    sub := Sub(channelIds, memberIds, roleIds);
  }

  /** The `notify` handler: store the subscription, then confirm. */
  method Notify(reg: ModRegistry, g: string, channels: seq<string>, members: seq<string>, roles: seq<string>,
                botId: string) returns (reply: string)
    requires reg.Valid()
    modifies reg
    ensures reg.Valid()
    ensures reg.NotificationsFor(g) == Some(Sub(channels, Without(members, botId), roles))
    ensures reg.subs == Put(old(reg.subs), g, Sub(channels, Without(members, botId), roles))
    ensures reg.mods == old(reg.mods) && reg.queue == old(reg.queue) && reg.savedMods == old(reg.savedMods)
    ensures reg.savedSubs == Entries(reg.subs)
    ensures reply == "Notifications set, " + NatToString(|Without(members, botId)|) + " members and " +
                     NatToString(|roles|) + " roles will be notified on " + NatToString(|channels|) + " channels."
  {
    var sub := BuildSubscription(channels, members, roles, botId);
    reg.SetNotifications(g, sub);
    reply := "Notifications set, " + NatToString(|sub.memberIds|) + " members and " +
             NatToString(|sub.roleIds|) + " roles will be notified on " + NatToString(|sub.channelIds|) + " channels.";
  }

  /** The `disable` handler. */
  method Disable(reg: ModRegistry, g: string) returns (reply: string)
    requires reg.Valid()
    modifies reg
    ensures reg.Valid()
    ensures reg.NotificationsFor(g).None?
    ensures reg.subs == Delete(old(reg.subs), g) && reg.mods == Pruning.RemoveGuild(old(reg.mods), g)
    ensures reg.queue == old(reg.queue)
    ensures reg.savedMods == Entries(reg.mods) && reg.savedSubs == Entries(reg.subs)
    ensures reply == "Monitoring disabled."
  {
    reg.DeleteAll(g);
    reply := "Monitoring disabled.";
  }
}

=== FILE: fanout.dfy ===
/** The notification fan-outs of modules/mod-manager.js (a changed mod) and
    modules/spotrep-manager.js (a new SpotRep post): for each guild, a
    header naming the change and its mentions, then the text cut into
    chunks of at most 1900 characters, each wrapped in triple backticks, to
    every channel of the guild's subscription. The sends come back as a
    plan; how the plan ends says whether every guild was reached. */
module FanOut {
  import opened Records
  import opened Text
  import opened Chunker

  const ChunkSize: nat := 1900

  /** How a fan-out finished. `Hung` stands for the chunking loop of
      `splitString` never finishing (see `Chunker.Terminates`): the process
      spins at that guild and sends nothing more. */
  datatype End = Completed | NoSubscription(guild: string) | MentionFailed(guild: string) | Hung(guild: string)

  datatype Plan = Plan(sends: seq<Send>, end: End)

  function ModHeader(name: string, url: string, note: string): string {
    "Mod `" + name + "` (<" + url + ">) was updated! " + note
  }

  function SpotRepHeader(info: string, link: string, note: string): string {
    "Arma was updated `" + info + "` (<" + link + ">) was updated! " + note
  }

  // ------------------------------------------------------- per-channel sends

  /** The chunk messages for one channel: empty chunks are skipped. */
  function ChunkSends(c: string, chunks: seq<string>): (r: seq<Send>)
    ensures forall i :: 0 <= i < |r| ==> r[i].channel == c
  {
    if chunks == [] then []
    else (if chunks[0] == "" then [] else [Send(c, Wrap(chunks[0]))]) + ChunkSends(c, chunks[1..])
  }

  /** Every channel gets the header, then the chunk messages. */
  function ChannelSends(channels: seq<string>, header: string, chunks: seq<string>): (r: seq<Send>)
    ensures forall i :: 0 <= i < |r| ==> r[i].channel in channels
  {
    if channels == [] then []
    else [Send(channels[0], header)] + ChunkSends(channels[0], chunks) + ChannelSends(channels[1..], header, chunks)
  }

  /** The text of a chunk message without its backticks. */
  function Unwrap(text: string): string {
    if |text| >= 6 then text[3..|text| - 3] else ""
  }

  /** The chunk texts a channel receives, unwrapped and joined. */
  function Payload(sends: seq<Send>): string {
    if sends == [] then "" else Unwrap(sends[0].text) + Payload(sends[1..])
  }

  /** What a channel receives after the header, unwrapped and joined, is
      exactly the text that was chunked: skipping empty chunks loses
      nothing. */
  lemma {:induction false} PayloadIsText(c: string, chunks: seq<string>)
    ensures Payload(ChunkSends(c, chunks)) == Concat(chunks)
  {
    if chunks != [] {
      PayloadIsText(c, chunks[1..]);
      var x := chunks[0];
      var rest := ChunkSends(c, chunks[1..]);
      if x == "" {
        assert ChunkSends(c, chunks) == rest;
        assert Concat(chunks) == Concat(chunks[1..]);
      } else {
        assert Wrap(x)[3..|Wrap(x)| - 3] == x;
        assert Unwrap(Wrap(x)) == x;
        assert ([Send(c, Wrap(x))] + rest)[1..] == rest;
      }
    }
  }

  /** The message sequence for one channel: the header first, then the
      chunk messages, which carry back the whole text. */
  lemma OneChannel(c: string, header: string, text: string, size: nat, p: string)
    requires Terminates(text, size, p)
    ensures var r := ChannelSends([c], header, Chunks(text, size, p));
              r[0] == Send(c, header) && Payload(r[1..]) == text
  {
    var chunks := Chunks(text, size, p);
    PayloadIsText(c, chunks);
    var r := ChannelSends([c], header, chunks);
    assert ChannelSends([c][1..], header, chunks) == [];
    assert r[1..] == ChunkSends(c, chunks);
  }

  /** The messages of one channel: the header, then every non-empty chunk
      wrapped in backticks. */
  method ChannelMessages(c: string, header: string, chunks: seq<string>) returns (out: seq<Send>)
    ensures out == [Send(c, header)] + ChunkSends(c, chunks)
  {
    out := [Send(c, header)];
    for k := 0 to |chunks|
      invariant out + ChunkSends(c, chunks[k..]) == [Send(c, header)] + ChunkSends(c, chunks)
    {
      assert chunks[k..][1..] == chunks[k + 1..];
      if chunks[k] != "" {
        out := out + [Send(c, Wrap(chunks[k]))];
      }
    }
    assert chunks[|chunks|..] == [];
  }

  /** Sending header and chunks to every channel, loop by loop. */
  method SendToChannels(channels: seq<string>, header: string, chunks: seq<string>) returns (sends: seq<Send>)
    ensures sends == ChannelSends(channels, header, chunks)
  {
    sends := [];
    for j := 0 to |channels|
      invariant sends + ChannelSends(channels[j..], header, chunks) == ChannelSends(channels, header, chunks)
    {
      assert channels[j..][1..] == channels[j + 1..];
      var out := ChannelMessages(channels[j], header, chunks);
      sends := sends + out;
    }
    assert channels[|channels|..] == [];
  }

  // ---------------------------------------------------------- mod fan-out

  /** The fan-out for an updated mod (mod-manager.js, the loop over the
      mod's guilds): the first guild without a subscription, or whose
      mentions cannot be resolved, ends the whole fan-out. */
  function ModFanOut(name: string, url: string, guilds: seq<string>, subs: map<string, Sub>,
                     notes: map<string, string>, changelog: string): Plan
  {
    if guilds == [] then Plan([], Completed)
    else
      var g := guilds[0];
      if g !in subs then Plan([], NoSubscription(g))
      else if g !in notes then Plan([], MentionFailed(g))
      else if !Terminates(changelog, ChunkSize, "\r\n") then Plan([], Hung(g))
      else
        var here := ChannelSends(subs[g].channelIds, ModHeader(name, url, notes[g]), Chunks(changelog, ChunkSize, "\r\n"));
        var rest := ModFanOut(name, url, guilds[1..], subs, notes, changelog);
        Plan(here + rest.sends, rest.end)
  }

  method RunModFanOut(name: string, url: string, guilds: seq<string>, subs: map<string, Sub>,
                      notes: map<string, string>, changelog: string) returns (plan: Plan)
    ensures plan == ModFanOut(name, url, guilds, subs, notes, changelog)
  {
    var sends := [];
    var i := 0;
    while i < |guilds|
      invariant 0 <= i <= |guilds|
      invariant ModFanOut(name, url, guilds, subs, notes, changelog)
                == Plan(sends + ModFanOut(name, url, guilds[i..], subs, notes, changelog).sends,
                        ModFanOut(name, url, guilds[i..], subs, notes, changelog).end)
    {
      var g := guilds[i];
      assert guilds[i..][0] == g && guilds[i..][1..] == guilds[i + 1..];
      if g !in subs {
        return Plan(sends, NoSubscription(g));
      }
      if g !in notes {
        return Plan(sends, MentionFailed(g));
      }
      if !Terminates(changelog, ChunkSize, "\r\n") {
        return Plan(sends, Hung(g));
      }
      var chunks := SplitString(changelog, ChunkSize, "\r\n");
      var here := SendToChannels(subs[g].channelIds, ModHeader(name, url, notes[g]), chunks);
      sends := sends + here;
      i := i + 1;
    }
    assert guilds[|guilds|..] == [];
    plan := Plan(sends, Completed);
  }

  /** The first guild of the mod without a subscription stops the fan-out:
      only the channels of the guilds before it receive anything. */
  lemma {:induction false} ModFanOutStopsAtMissing(name: string, url: string, guilds: seq<string>,
                                                  subs: map<string, Sub>, notes: map<string, string>,
                                                  changelog: string, k: nat)
    requires k < |guilds| && guilds[k] !in subs
    requires forall j :: 0 <= j < k ==> guilds[j] in subs && guilds[j] in notes
    requires Terminates(changelog, ChunkSize, "\r\n")
    ensures var plan := ModFanOut(name, url, guilds, subs, notes, changelog);
              plan.end == NoSubscription(guilds[k]) &&
              forall i :: 0 <= i < |plan.sends| ==>
                exists j :: 0 <= j < k && plan.sends[i].channel in subs[guilds[j]].channelIds
  {
    if k > 0 {
      var g := guilds[0];
      ModFanOutStopsAtMissing(name, url, guilds[1..], subs, notes, changelog, k - 1);
      var here := ChannelSends(subs[g].channelIds, ModHeader(name, url, notes[g]), Chunks(changelog, ChunkSize, "\r\n"));
      var rest := ModFanOut(name, url, guilds[1..], subs, notes, changelog);
      var plan := ModFanOut(name, url, guilds, subs, notes, changelog);
      assert plan.sends == here + rest.sends;
      forall i | 0 <= i < |plan.sends|
        ensures exists j :: 0 <= j < k && plan.sends[i].channel in subs[guilds[j]].channelIds
      {
        if i < |here| {
          assert plan.sends[i] == here[i];
          assert plan.sends[i].channel in subs[guilds[0]].channelIds;
        } else {
          assert plan.sends[i] == rest.sends[i - |here|];
          var j :| 0 <= j < k - 1 && rest.sends[i - |here|].channel in subs[guilds[1..][j]].channelIds;
          assert guilds[1..][j] == guilds[j + 1];
        }
      }
    }
  }

  /** When every guild of the mod has a subscription and resolved mentions,
      the fan-out completes and every channel of every guild gets its
      guild's header. */
  lemma {:induction false} ModFanOutReachesAll(name: string, url: string, guilds: seq<string>,
                                              subs: map<string, Sub>, notes: map<string, string>,
                                              changelog: string)
    requires forall j :: 0 <= j < |guilds| ==> guilds[j] in subs && guilds[j] in notes
    requires Terminates(changelog, ChunkSize, "\r\n")
    ensures var plan := ModFanOut(name, url, guilds, subs, notes, changelog);
              plan.end == Completed &&
              forall j, c :: 0 <= j < |guilds| && c in subs[guilds[j]].channelIds ==>
                Send(c, ModHeader(name, url, notes[guilds[j]])) in plan.sends
  {
    if guilds != [] {
      ModFanOutReachesAll(name, url, guilds[1..], subs, notes, changelog);
      var g := guilds[0];
      var chunks := Chunks(changelog, ChunkSize, "\r\n");
      var here := ChannelSends(subs[g].channelIds, ModHeader(name, url, notes[g]), chunks);
      var rest := ModFanOut(name, url, guilds[1..], subs, notes, changelog);
      forall j, c | 0 <= j < |guilds| && c in subs[guilds[j]].channelIds
        ensures Send(c, ModHeader(name, url, notes[guilds[j]])) in here + rest.sends
      {
        if j == 0 {
          HeaderSent(subs[g].channelIds, ModHeader(name, url, notes[g]), chunks, c);
        } else {
          assert guilds[1..][j - 1] == guilds[j];
        }
      }
    }
  }

  /** Each listed channel receives the header. */
  lemma {:induction false} HeaderSent(channels: seq<string>, header: string, chunks: seq<string>, c: string)
    requires c in channels
    ensures Send(c, header) in ChannelSends(channels, header, chunks)
  {
    if channels[0] != c {
      HeaderSent(channels[1..], header, chunks, c);
    }
  }

  // ------------------------------------------------------ SpotRep fan-out

  /** The SpotRep broadcast (spotrep-manager.js): every guild with a
      subscription, in map order, whatever mods it monitors; a guild whose
      mentions cannot be resolved is skipped and the others continue. */
  function SpotRepFanOut(guilds: seq<string>, subs: map<string, Sub>, notes: map<string, string>,
                         info: string, link: string, body: string): Plan
    requires forall g :: g in guilds ==> g in subs
  {
    if guilds == [] then Plan([], Completed)
    else
      var g := guilds[0];
      if g !in notes then SpotRepFanOut(guilds[1..], subs, notes, info, link, body)
      else if !Terminates(body, ChunkSize, "\n") then Plan([], Hung(g))
      else
        var here := ChannelSends(subs[g].channelIds, SpotRepHeader(info, link, notes[g]), Chunks(body, ChunkSize, "\n"));
        var rest := SpotRepFanOut(guilds[1..], subs, notes, info, link, body);
        Plan(here + rest.sends, rest.end)
  }

  method RunSpotRepFanOut(guilds: seq<string>, subs: map<string, Sub>, notes: map<string, string>,
                          info: string, link: string, body: string) returns (plan: Plan)
    requires forall g :: g in guilds ==> g in subs
    ensures plan == SpotRepFanOut(guilds, subs, notes, info, link, body)
  {
    var sends := [];
    var i := 0;
    while i < |guilds|
      invariant 0 <= i <= |guilds|
      invariant SpotRepFanOut(guilds, subs, notes, info, link, body)
                == Plan(sends + SpotRepFanOut(guilds[i..], subs, notes, info, link, body).sends,
                        SpotRepFanOut(guilds[i..], subs, notes, info, link, body).end)
    {
      var g := guilds[i];
      assert guilds[i..][0] == g && guilds[i..][1..] == guilds[i + 1..];
      if g in notes {
        if !Terminates(body, ChunkSize, "\n") {
          return Plan(sends, Hung(g));
        }
        var chunks := SplitString(body, ChunkSize, "\n");
        var here := SendToChannels(subs[g].channelIds, SpotRepHeader(info, link, notes[g]), chunks);
        sends := sends + here;
      }
      i := i + 1;
    }
    assert guilds[|guilds|..] == [];
    plan := Plan(sends, Completed);
  }

  /** When the post body can be chunked, the broadcast always completes. */
  lemma {:induction false} SpotRepCompletes(guilds: seq<string>, subs: map<string, Sub>, notes: map<string, string>,
                                           info: string, link: string, body: string)
    requires forall g :: g in guilds ==> g in subs
    requires Terminates(body, ChunkSize, "\n")
    ensures SpotRepFanOut(guilds, subs, notes, info, link, body).end == Completed
  {
    if guilds != [] {
      SpotRepCompletes(guilds[1..], subs, notes, info, link, body);
    }
  }

  /** ... and every channel of every guild with resolved mentions gets the
      header, */
  lemma {:induction false} SpotRepReachesAll(guilds: seq<string>, subs: map<string, Sub>, notes: map<string, string>,
                                            info: string, link: string, body: string)
    requires forall g :: g in guilds ==> g in subs
    requires Terminates(body, ChunkSize, "\n")
    ensures forall j, c :: 0 <= j < |guilds| && guilds[j] in notes && c in subs[guilds[j]].channelIds ==>
              Send(c, SpotRepHeader(info, link, notes[guilds[j]])) in SpotRepFanOut(guilds, subs, notes, info, link, body).sends
  {
    if guilds != [] {
      SpotRepReachesAll(guilds[1..], subs, notes, info, link, body);
      var g := guilds[0];
      var rest := SpotRepFanOut(guilds[1..], subs, notes, info, link, body);
      var chunks := Chunks(body, ChunkSize, "\n");
      var here := if g in notes then ChannelSends(subs[g].channelIds, SpotRepHeader(info, link, notes[g]), chunks) else [];
      assert SpotRepFanOut(guilds, subs, notes, info, link, body).sends == here + rest.sends;
      forall j, c | 0 <= j < |guilds| && guilds[j] in notes && c in subs[guilds[j]].channelIds
        ensures Send(c, SpotRepHeader(info, link, notes[guilds[j]])) in here + rest.sends
      {
        if j == 0 {
          HeaderSent(subs[g].channelIds, SpotRepHeader(info, link, notes[g]), chunks, c);
        } else {
          assert guilds[1..][j - 1] == guilds[j];
        }
      }
    }
  }

  /** The channels of the guilds whose mentions were resolved. */
  ghost function NotedChannels(guilds: seq<string>, subs: map<string, Sub>, notes: map<string, string>): set<string>
    requires forall g :: g in guilds ==> g in subs
  {
    if guilds == [] then {}
    else (if guilds[0] in notes then set c | c in subs[guilds[0]].channelIds else {})
         + NotedChannels(guilds[1..], subs, notes)
  }

  /** ... and nothing goes to a channel of a guild whose mentions failed. */
  lemma {:induction false} SpotRepOnlyNoted(guilds: seq<string>, subs: map<string, Sub>, notes: map<string, string>,
                                           info: string, link: string, body: string)
    requires forall g :: g in guilds ==> g in subs
    ensures forall s :: s in SpotRepFanOut(guilds, subs, notes, info, link, body).sends ==>
              s.channel in NotedChannels(guilds, subs, notes)
  {
    if guilds != [] {
      SpotRepOnlyNoted(guilds[1..], subs, notes, info, link, body);
      var g := guilds[0];
      var plan := SpotRepFanOut(guilds, subs, notes, info, link, body);
      var rest := SpotRepFanOut(guilds[1..], subs, notes, info, link, body);
      var mine := if g in notes then set c | c in subs[g].channelIds else {};
      assert NotedChannels(guilds, subs, notes) == mine + NotedChannels(guilds[1..], subs, notes);
      if g !in notes {
        assert plan == rest;
      } else if Terminates(body, ChunkSize, "\n") {
        var here := ChannelSends(subs[g].channelIds, SpotRepHeader(info, link, notes[g]), Chunks(body, ChunkSize, "\n"));
        assert plan.sends == here + rest.sends;
        forall s | s in here ensures s.channel in mine { }
      }
    }
  }
}

=== FILE: ordered_map.dfy ===
/** A JavaScript `Map` with string keys. Iteration over such a map follows
    the order in which keys were first inserted; re-setting a key keeps its
    place and deleting it drops it from the order. */
module OrderedMaps {
  import opened Seqs
  import opened Outcomes

  datatype OrderedMap<V> = OrderedMap(keys: seq<string>, entries: map<string, V>) {

    /** The key order lists every key once and nothing else. */
    ghost predicate Valid() {
      NoDup(keys) && forall k :: k in keys <==> k in entries
    }
  }

  function Empty<V>(): (r: OrderedMap<V>)
    ensures r.Valid() && r.entries == map[] && r.keys == []
  {
    OrderedMap([], map[])
  }

  /** `map.get(k)`: the stored value, or absent. */
  function Get<V>(m: OrderedMap<V>, k: string): (r: Option<V>)
    ensures r.Some? <==> k in m.entries
    ensures r.Some? ==> r.value == m.entries[k]
  {
    if k in m.entries then Some(m.entries[k]) else None
  }

  /** `map.set(k, v)`: a new key goes to the end of the order, a key already
      present keeps its place and only its value changes. */
  function Put<V>(m: OrderedMap<V>, k: string, v: V): (r: OrderedMap<V>)
    requires m.Valid()
    ensures r.Valid()
    ensures r.entries == m.entries[k := v]
    ensures k in m.entries ==> r.keys == m.keys
    ensures k !in m.entries ==> r.keys == m.keys + [k]
  {
    if k in m.entries then OrderedMap(m.keys, m.entries[k := v])
    else
      assert k !in m.keys;
      NoDupAppend(m.keys, k);
      OrderedMap(m.keys + [k], m.entries[k := v])
  }

  /** `map.delete(k)`: the key leaves both the entries and the order. */
  function Delete<V>(m: OrderedMap<V>, k: string): (r: OrderedMap<V>)
    requires m.Valid()
    ensures r.Valid()
    ensures r.entries == m.entries - {k}
    ensures r.keys == Without(m.keys, k)
  {
    OrderedMap(Without(m.keys, k), m.entries - {k})
  }

  /** Deleting a key just after setting it is the same as deleting it. */
  lemma DeleteAfterPut<V>(m: OrderedMap<V>, k: string, v: V)
    requires m.Valid() && k in m.entries
    ensures Delete(Put(m, k, v), k) == Delete(m, k)
  {
    assert m.entries[k := v] - {k} == m.entries - {k};
  }

  lemma NoDupAppend(s: seq<string>, x: string)
    requires NoDup(s) && x !in s
    ensures NoDup(s + [x])
  {
  }

  /** `Object.fromEntries(map)` as it is serialised: the pairs in key order. */
  function Entries<V>(m: OrderedMap<V>): (r: seq<(string, V)>)
    requires m.Valid()
    ensures |r| == |m.keys|
    ensures forall i :: 0 <= i < |r| ==> r[i].0 == m.keys[i] && r[i].1 == m.entries[m.keys[i]]
  {
    seq(|m.keys|, i requires 0 <= i < |m.keys| => (m.keys[i], m.entries[m.keys[i]]))
  }

  /** `new Map(Object.entries(object))`: the pairs are set one after the
      other, so a repeated key keeps its first place and its last value. */
  function FromEntries<V>(es: seq<(string, V)>): (r: OrderedMap<V>)
    ensures r.Valid()
  {
    if es == [] then Empty()
    else Put(FromEntries(es[..|es| - 1]), es[|es| - 1].0, es[|es| - 1].1)
  }

  /** The entries of `m` whose keys come among the first `i` of its order. */
  function Prefix<V>(m: OrderedMap<V>, i: nat): (r: map<string, V>)
    requires m.Valid() && i <= |m.keys|
  {
    map k | k in m.keys[..i] :: m.entries[k]
  }

  lemma {:induction false} FromEntriesPrefix<V>(m: OrderedMap<V>, i: nat)
    requires m.Valid() && i <= |m.keys|
    ensures FromEntries(Entries(m)[..i]) == OrderedMap(m.keys[..i], Prefix(m, i))
  {
    if i > 0 {
      var es := Entries(m)[..i];
      var k, v := m.keys[i - 1], m.entries[m.keys[i - 1]];
      assert es[..i - 1] == Entries(m)[..i - 1];
      assert es[i - 1] == (k, v);
      FromEntriesPrefix(m, i - 1);
      var prev := OrderedMap(m.keys[..i - 1], Prefix(m, i - 1));
      assert FromEntries(es) == Put(prev, k, v);
      PrefixStep(m, i);
    }
  }

  lemma PrefixStep<V>(m: OrderedMap<V>, i: nat)
    requires m.Valid() && 0 < i <= |m.keys|
    ensures m.keys[i - 1] !in Prefix(m, i - 1)
    ensures m.keys[..i - 1] + [m.keys[i - 1]] == m.keys[..i]
    ensures Prefix(m, i - 1)[m.keys[i - 1] := m.entries[m.keys[i - 1]]] == Prefix(m, i)
  {
    var k := m.keys[i - 1];
    assert m.keys[..i - 1] + [k] == m.keys[..i];
    assert k !in m.keys[..i - 1];
  }

  /** Serialising a map and loading it back gives the same map, order
      included. */
  lemma FromEntriesRoundTrip<V>(m: OrderedMap<V>)
    requires m.Valid()
    ensures FromEntries(Entries(m)) == m
  {
    FromEntriesPrefix(m, |m.keys|);
    assert Entries(m)[..|m.keys|] == Entries(m);
    assert m.keys[..|m.keys|] == m.keys;
    assert Prefix(m, |m.keys|) == m.entries;
  }
}

=== FILE: outcomes.dfy ===
/** Optional values and the outcome of an operation that may fail with a
    message (a rejected promise or a thrown error in the JavaScript code). */
module Outcomes {

  datatype Option<T> = None | Some(value: T)

  datatype Result<T> = Ok(value: T) | Err(message: string)
}

=== FILE: polling.dfy ===
/** The pure parts of the `checkMod` tick (modules/mod-manager.js): the
    round-robin queue of mod URLs and the three-way decision on the scraped
    last-modified time. Times are integers; 0 is the epoch-zero sentinel
    of a mod that was never checked. */
module Polling {
  /** The queue a tick takes its URL from: an empty queue is refilled with
      every key of the mod map, in insertion order. */
  function Refill(queue: seq<string>, keys: seq<string>): (r: seq<string>)
    ensures queue != [] ==> r == queue
    ensures queue == [] ==> r == keys
  {
    if queue == [] then keys else queue
  }

  /** The URLs that `n` ticks take, one per tick, when the mod map keeps
      the keys `keys` throughout. */
  function Visits(queue: seq<string>, keys: seq<string>, n: nat): (r: seq<string>)
    requires keys != []
    ensures |r| == n
    decreases n
  {
    if n == 0 then []
    else
      var q := Refill(queue, keys);
      [q[0]] + Visits(q[1..], keys, n - 1)
  }

  /** The queue after `n` such ticks. */
  function QueueAfter(queue: seq<string>, keys: seq<string>, n: nat): seq<string>
    requires keys != []
    decreases n
  {
    if n == 0 then queue else QueueAfter(Refill(queue, keys)[1..], keys, n - 1)
  }

  /** Starting from an empty queue, as many ticks as there are mods visit
      every mod once, in insertion order, and leave the queue empty, so the
      next round starts over. */
  lemma RoundRobin(keys: seq<string>)
    requires keys != []
    ensures Visits([], keys, |keys|) == keys
    ensures QueueAfter([], keys, |keys|) == []
  {
    RoundRobinRest(keys, 1);
  }

  lemma {:induction false} RoundRobinRest(keys: seq<string>, i: nat)
    requires 1 <= i <= |keys|
    ensures Visits(keys[i..], keys, |keys| - i) == keys[i..]
    ensures QueueAfter(keys[i..], keys, |keys| - i) == []
    decreases |keys| - i
  {
    if i < |keys| {
      RoundRobinRest(keys, i + 1);
      assert keys[i..][1..] == keys[i + 1..];
      assert [keys[i]] + keys[i + 1..] == keys[i..];
    }
  }

  /** The decision of a tick: the new last-modified time and whether the
      mod's guilds are notified. */
  datatype Decision = Decision(lastModified: int, notify: bool)

  /** A never-checked mod takes the scraped time without notifying; a
      scraped time strictly later than the stored one is taken and
      notified; anything else keeps the stored time. */
  function Decide(stored: int, scraped: int): (r: Decision)
    ensures r.notify <==> stored != 0 && scraped > stored
    ensures stored == 0 ==> r.lastModified == scraped
    ensures stored != 0 ==> r.lastModified == (if scraped > stored then scraped else stored)
    ensures stored != 0 ==> r.lastModified >= scraped && r.lastModified >= stored
  {
    if stored == 0 then Decision(scraped, false)
    else if scraped > stored then Decision(scraped, true)
    else Decision(stored, false)
  }

  /** The same page time never notifies twice: deciding again on what was
      just stored does not notify. */
  lemma DecideOnce(stored: int, scraped: int)
    ensures !Decide(Decide(stored, scraped).lastModified, scraped).notify
  {
  }
}

=== FILE: records.dfy ===
/** The records the bot keeps and the messages it sends. */
module Records {

  /** A tracked Steam Workshop mod. `guilds` is the mod's `Set` of guild
      ids in insertion order; both timestamps are 0 ("epoch zero", never
      checked) until the poller has looked at the mod. */
  datatype Mod = Mod(name: string, guilds: seq<string>, lastChecked: int, lastModified: int)

  /** A guild's notification settings: the channels that receive messages
      and the members and roles that are mentioned in them. */
  datatype Sub = Sub(channelIds: seq<string>, memberIds: seq<string>, roleIds: seq<string>)

  /** One message sent to one channel. */
  datatype Send = Send(channel: string, text: string)
}

=== FILE: registry.dfy ===
/** The mod registry of modules/mod-manager.js: the mod map (URL to mod),
    the notification map (guild to subscription), the queue of URLs the
    poller works through, and the snapshots last written to the cache. */
module Registry {
  import opened Seqs
  import opened Outcomes
  import opened Records
  import opened OrderedMaps
  import opened Text
  import opened FanOut
  import opened Pruning
  import opened Merging
  import opened Polling
  import opened Views

  /** What one `checkMod` tick did. */
  datatype Tick =
    | NoMods
    | NotFound(url: string)
    | ScrapeFailed(url: string, message: string)
    | Checked(url: string, decision: Decision, plan: Plan)

  /** The changelog the fan-out sends: the normalised text, or the error
      line when it could not be fetched. */
  function ChangelogText(changelog: Result<string>): (r: string)
    ensures changelog.Ok? ==> Lf(r) == changelog.value
    ensures changelog.Ok? ==> (r == "" <==> changelog.value == "")
    ensures changelog.Ok? ==> forall i :: 0 <= i < |r| && r[i] == '\n' ==> 0 < i && r[i - 1] == '\r'
    ensures changelog.Err? ==> r == "Error: Could not load changelog: " + changelog.message
  {
    match changelog
    case Ok(c) => NormalizeChangelog(c)
    case Err(msg) => "Error: Could not load changelog: " + msg
  }

  /** `more.forEach(set.add, set)` on the guild set `guilds`. */
  method AddGuilds(guilds: seq<string>, more: seq<string>) returns (r: seq<string>)
    ensures r == AddAll(guilds, more)
  {
    r := guilds;
    for j := 0 to |more|
      invariant AddAll(r, more[j..]) == AddAll(guilds, more)
    {
      assert more[j..][1..] == more[j + 1..];
      if more[j] !in r {
        r := r + [more[j]];
      }
    }
    assert more[|more|..] == [];
  }

  class ModRegistry {
    var mods: OrderedMap<Mod>
    var subs: OrderedMap<Sub>
    var queue: seq<string>
    /** The mod and notification maps as last written to the cache. */
    var savedMods: seq<(string, Mod)>
    var savedSubs: seq<(string, Sub)>

    ghost predicate Valid()
      reads this
    {
      mods.Valid() && subs.Valid()
    }

    constructor ()
      ensures Valid()
      ensures mods == Empty() && subs == Empty() && queue == [] && savedMods == [] && savedSubs == []
    {
      mods := Empty();
      subs := Empty();
      queue := [];
      savedMods := [];
      savedSubs := [];
    }

    /** `listNotificationsForGuildId`: the guild's subscription, if any. */
    function NotificationsFor(g: string): (r: Option<Sub>)
      reads this
      ensures r.Some? <==> g in subs.entries
      ensures r.Some? ==> r.value == subs.entries[g]
    {
      Get(subs, g)
    }

    /** `deleteGuild`: walk the mod map in order, drop the guild from each
        mod and delete the mods left without guilds. No save. */
    method DeleteGuild(g: string)
      requires Valid()
      modifies this
      ensures Valid()
      ensures mods == RemoveGuild(old(mods), g)
      ensures subs == old(subs) && queue == old(queue)
      ensures savedMods == old(savedMods) && savedSubs == old(savedSubs)
    {
      var ks := mods.keys;
      var ms := mods;
      for i := 0 to |ks|
        modifies {}
        invariant ms.Valid()
        invariant PruneKeys(ms, ks[i..], g) == RemoveGuild(mods, g)
      {
        PruneKeysStep(ms, ks, g, i);
        var k := ks[i];
        // the entry under `k` is still there: only visited keys are deleted
        if k in ms.entries {
          var m := ms.entries[k];
          if g in m.guilds {
            PruneStepListed(ms, k, g);
            m := m.(guilds := Without(m.guilds, g));
            ms := Put(ms, k, m);
          }
          if m.guilds == [] {
            ms := Delete(ms, k);
          }
        }
      }
      assert ks[|ks|..] == [];
      mods := ms;
    }

    /** The `deleteAll` handler: drop the guild's subscription and the
        guild from every mod, then save both maps. */
    method DeleteAll(g: string)
      requires Valid()
      modifies this
      ensures Valid()
      ensures subs == Delete(old(subs), g)
      ensures mods == RemoveGuild(old(mods), g)
      ensures queue == old(queue)
      ensures savedMods == Entries(mods) && savedSubs == Entries(subs)
    {
      subs := Delete(subs, g);
      DeleteGuild(g);
      savedMods := Entries(mods);
      savedSubs := Entries(subs);
    }

    /** The `monitorMods` handler: clear the guild from every mod, merge
        the incoming mods in their order, then save the mod map. */
    method MonitorMods(newMods: OrderedMap<NewMod>, g: string)
      requires Valid() && newMods.Valid()
      modifies this
      ensures Valid()
      ensures mods == Monitored(old(mods), newMods, g)
      ensures subs == old(subs) && queue == old(queue) && savedSubs == old(savedSubs)
      ensures savedMods == Entries(mods)
    {
      ghost var start := mods;
      DeleteGuild(g);
      var ks := newMods.keys;
      var ms := mods;
      for i := 0 to |ks|
        modifies {}
        invariant ms.Valid()
        invariant MergeKeys(ms, newMods, ks[i..]) == Monitored(start, newMods, g)
      {
        MergeStep(ms, newMods, ks, i);
        var k := ks[i];
        var nm := newMods.entries[k];
        if k in ms.entries {
          var m := ms.entries[k];
          var guilds := AddGuilds(m.guilds, nm.guilds);
          assert m.(guilds := guilds) == Merged(ms, k, nm);
          ms := Put(ms, k, m.(guilds := guilds));
        } else {
          assert Mod(nm.name, Dedup(nm.guilds), 0, 0) == Merged(ms, k, nm);
          ms := Put(ms, k, Mod(nm.name, Dedup(nm.guilds), 0, 0));
        }
      }
      assert ks[|ks|..] == [];
      mods := ms;
      savedMods := Entries(mods);
    }

    /** The `setNotifications` handler: the guild's subscription is
        replaced as a whole, then the notification map is saved. */
    method SetNotifications(g: string, sub: Sub)
      requires Valid()
      modifies this
      ensures Valid()
      ensures NotificationsFor(g) == Some(sub)
      ensures forall h :: h != g ==> NotificationsFor(h) == old(NotificationsFor(h))
      ensures subs == Put(old(subs), g, sub)
      ensures mods == old(mods) && queue == old(queue) && savedMods == old(savedMods)
      ensures savedSubs == Entries(subs)
    {
      subs := Put(subs, g, sub);
      savedSubs := Entries(subs);
    }

    /** The `listMods` handler: collect the guild's mods in map order. */
    method ListMods(g: string) returns (r: seq<Mod>)
      requires Valid()
      ensures r == Listed(mods, g)
    {
      r := [];
      var ks, entries := mods.keys, mods.entries;
      assert forall k :: k in ks ==> k in entries;
      for i := 0 to |ks|
        invariant r + ListedFrom(ks[i..], entries, g) == Listed(mods, g)
      {
        ListedStep(ks, entries, g, i);
        var m := entries[ks[i]];
        if g in m.guilds {
          r := r + [m];
        }
      }
    }

    /** The `loadModsFromCache` handler. */
    method LoadMods(cached: seq<(string, Mod)>)
      modifies this
      ensures Valid() == subs.Valid()
      ensures mods == LoadedMods(cached)
      ensures subs == old(subs) && queue == old(queue)
      ensures savedMods == old(savedMods) && savedSubs == old(savedSubs)
    {
      mods := LoadedMods(cached);
    }

    /** The `loadNotificationsFromCache` handler. */
    method LoadNotifications(cached: seq<(string, Sub)>)
      modifies this
      ensures Valid() == mods.Valid()
      ensures subs == FromEntries(cached)
      ensures mods == old(mods) && queue == old(queue)
      ensures savedMods == old(savedMods) && savedSubs == old(savedSubs)
    {
      subs := FromEntries(cached);
    }

    /** The queue step of a tick: refill an empty queue with every URL of
        the mod map, in order, then take the URL at its front. */
    method TakeUrl() returns (url: string)
      requires Valid() && mods.entries != map[]
      modifies this
      ensures var q := Refill(old(queue), old(mods.keys)); q != [] && url == q[0] && queue == q[1..]
      ensures mods == old(mods) && subs == old(subs)
      ensures savedMods == old(savedMods) && savedSubs == old(savedSubs)
    {
      var q := queue;
      if q == [] {
        ghost var k :| k in mods.entries;
        assert k in mods.keys;
        var ks := mods.keys;
        for i := 0 to |ks|
          modifies {}
          invariant q == ks[..i]
        {
          q := q + [ks[i]];
        }
        assert ks[..|ks|] == ks;
      }
      url := q[0];
      queue := q[1..];
    }

    /** The `checkMod` tick. With no mods nothing happens. Otherwise an
        empty queue is refilled with every URL in map order and one URL is
        taken from its front; a URL no longer in the map is dropped. The
        scrape of the mod page (`scrape`), the changelog fetch, the clock
        and the resolved mention lines of the guilds (`notes`; a guild
        missing from it is one whose mentions could not be resolved) are
        inputs. A failed scrape leaves the mod alone; otherwise the decision
        is stored, the mod is stamped with `now` and the mod map is saved,
        and a notified mod's guilds are sent the changelog. */
    method CheckMod(scrape: Result<int>, changelog: Result<string>, now: int, notes: map<string, string>)
      returns (t: Tick)
      requires Valid()
      modifies this
      ensures Valid()
      ensures subs == old(subs) && savedSubs == old(savedSubs)
      ensures old(mods.entries) == map[] ==> t == NoMods && unchanged(this)
      ensures old(mods.entries) != map[] ==>
                var q := Refill(old(queue), old(mods.keys));
                q != [] && queue == q[1..] && !t.NoMods? && t.url == q[0]
      ensures t.NotFound? ==> t.url !in old(mods.entries) && mods == old(mods) && savedMods == old(savedMods)
      ensures t.ScrapeFailed? ==>
                (scrape.Err? && t.message == scrape.message && mods == old(mods) && savedMods == old(savedMods))
      ensures t.Checked? ==>
                t.url in old(mods.entries) && scrape.Ok? &&
                var m := old(mods.entries)[t.url];
                t.decision == Decide(m.lastModified, scrape.value) &&
                mods == Put(old(mods), t.url, m.(lastChecked := now, lastModified := t.decision.lastModified)) &&
                savedMods == Entries(mods) &&
                t.plan == (if t.decision.notify
                           then ModFanOut(m.name, t.url, m.guilds, subs.entries, notes, ChangelogText(changelog))
                           else Plan([], Completed))
      ensures !t.NoMods? && t.url in old(mods.entries) ==> t.ScrapeFailed? == scrape.Err?
      ensures !t.NoMods? && t.url !in old(mods.entries) ==> t.NotFound?
    {
      var ms := mods;
      if ms.entries == map[] {
        return NoMods;
      }
      var url := TakeUrl();
      if url !in ms.entries {
        return NotFound(url);
      }
      var m := ms.entries[url];
      if scrape.Err? {
        return ScrapeFailed(url, scrape.message);
      }
      var d := Decide(m.lastModified, scrape.value);
      var plan := Plan([], Completed);
      if d.notify {
        plan := RunModFanOut(m.name, url, m.guilds, subs.entries, notes, ChangelogText(changelog));
      }
      mods := Put(ms, url, m.(lastChecked := now, lastModified := d.lastModified));
      savedMods := Entries(mods);
      return Checked(url, d, plan);
    }
  }
}

=== FILE: registry_merge.dfy ===
/** What `monitorMods` (modules/mod-manager.js) does to the mod map after
    clearing the guild: every incoming entry either joins an existing mod
    (its guilds are added to the mod's set; name and timestamps stay) or is
    stored as a new mod with a set built from its guilds and both
    timestamps at the epoch-zero sentinel. */
module Merging {
  import opened Seqs
  import opened Records
  import opened OrderedMaps
  import opened Pruning

  /** One incoming mod: its display name and the guilds it is for. */
  datatype NewMod = NewMod(name: string, guilds: seq<string>)

  /** The entry for `k` once `nm` has been merged into it. */
  function Merged(mods: OrderedMap<Mod>, k: string, nm: NewMod): (r: Mod)
    ensures k in mods.entries ==>
              (r.name == mods.entries[k].name &&
               r.lastChecked == mods.entries[k].lastChecked && r.lastModified == mods.entries[k].lastModified)
    ensures k !in mods.entries ==> r.name == nm.name && r.lastChecked == 0 && r.lastModified == 0
    ensures forall x :: x in r.guilds <==> x in nm.guilds || (k in mods.entries && x in mods.entries[k].guilds)
  {
    if k in mods.entries then
      var m := mods.entries[k];
      AddAllSpec(m.guilds, nm.guilds);
      m.(guilds := AddAll(m.guilds, nm.guilds))
    else
      DedupSpec(nm.guilds);
      Mod(nm.name, Dedup(nm.guilds), 0, 0)
  }

  /** The loop of `monitorMods` over the incoming keys `ks`. */
  function MergeKeys(mods: OrderedMap<Mod>, newMods: OrderedMap<NewMod>, ks: seq<string>): (r: OrderedMap<Mod>)
    requires mods.Valid()
    requires forall k :: k in ks ==> k in newMods.entries
    ensures r.Valid()
    decreases |ks|
  {
    if ks == [] then mods
    else MergeKeys(Put(mods, ks[0], Merged(mods, ks[0], newMods.entries[ks[0]])), newMods, ks[1..])
  }

  /** One round of the merge loop. */
  lemma MergeStep(mods: OrderedMap<Mod>, newMods: OrderedMap<NewMod>, ks: seq<string>, i: nat)
    requires mods.Valid() && i < |ks| && forall k :: k in ks ==> k in newMods.entries
    ensures ks[i] in newMods.entries && forall k :: k in ks[i + 1..] ==> k in newMods.entries
    ensures MergeKeys(mods, newMods, ks[i..]) ==
              MergeKeys(Put(mods, ks[i], Merged(mods, ks[i], newMods.entries[ks[i]])), newMods, ks[i + 1..])
  {
    assert ks[i..][0] == ks[i] && ks[i..][1..] == ks[i + 1..];
  }

  /** `monitorMods(newMods, g)`: clear `g` from every mod, then merge. */
  function Monitored(mods: OrderedMap<Mod>, newMods: OrderedMap<NewMod>, g: string): (r: OrderedMap<Mod>)
    requires mods.Valid() && newMods.Valid()
    ensures r.Valid()
  {
    MergeKeys(RemoveGuild(mods, g), newMods, newMods.keys)
  }

  /** Key by key: each incoming key ends up with the merged entry; every
      other mod is left alone. */
  lemma {:induction false} MergeKeysSpec(mods: OrderedMap<Mod>, newMods: OrderedMap<NewMod>, ks: seq<string>)
    requires mods.Valid() && NoDup(ks)
    requires forall k :: k in ks ==> k in newMods.entries
    ensures var r := MergeKeys(mods, newMods, ks);
              (forall k :: k in r.entries <==> k in mods.entries || k in ks) &&
              (forall k :: k in ks ==> r.entries[k] == Merged(mods, k, newMods.entries[k])) &&
              (forall k :: k !in ks && k in mods.entries ==> r.entries[k] == mods.entries[k])
    decreases |ks|
  {
    if ks != [] {
      var k0 := ks[0];
      var next := Put(mods, k0, Merged(mods, k0, newMods.entries[k0]));
      assert NoDup(ks[1..]);
      MergeKeysSpec(next, newMods, ks[1..]);
      forall k | k in ks
        ensures k == k0 || k in ks[1..]
      {
        if k != k0 {
          var i :| 0 <= i < |ks| && ks[i] == k;
          assert ks[1..][i - 1] == k;
        }
      }
      assert k0 !in ks[1..];
      forall k | k in ks[1..]
        ensures Merged(next, k, newMods.entries[k]) == Merged(mods, k, newMods.entries[k])
      {
        assert k != k0;
      }
    }
  }

  /** The merge loop only appends: keys already stored keep their place,
      and the incoming keys that are new follow, in the incoming order. */
  lemma {:induction false} MergeKeysOrder(mods: OrderedMap<Mod>, newMods: OrderedMap<NewMod>, ks: seq<string>)
    requires mods.Valid() && NoDup(ks)
    requires forall k :: k in ks ==> k in newMods.entries
    ensures MergeKeys(mods, newMods, ks).keys == mods.keys + Drop(ks, mods.entries.Keys)
    decreases |ks|
  {
    if ks == [] {
      assert mods.keys + [] == mods.keys;
    } else {
      var k0 := ks[0];
      var next := Put(mods, k0, Merged(mods, k0, newMods.entries[k0]));
      assert NoDup(ks[1..]) && k0 !in ks[1..];
      MergeKeysOrder(next, newMods, ks[1..]);
      MergeOrderStep(mods.keys, mods.entries.Keys, ks, next.keys, next.entries.Keys);
    }
  }

  /** The order step of `MergeKeysOrder`, apart from the map itself. */
  lemma MergeOrderStep(keys: seq<string>, stored: set<string>, ks: seq<string>, keys': seq<string>, stored': set<string>)
    requires ks != [] && ks[0] !in ks[1..]
    requires stored' == stored + {ks[0]}
    requires keys' == if ks[0] in stored then keys else keys + [ks[0]]
    ensures keys' + Drop(ks[1..], stored') == keys + Drop(ks, stored)
  {
    var x, rest := ks[0], Drop(ks[1..], stored);
    if x in stored {
      assert stored' == stored;
      assert Drop(ks, stored) == rest;
    } else {
      DropAbsent(ks[1..], x, stored);
      assert Drop(ks, stored) == [x] + rest;
      assert keys + [x] + rest == keys + ([x] + rest);
    }
  }

  /** A mod that is already tracked keeps its name and both timestamps and
      gains the incoming guilds; a new one gets its name, the set of its
      guilds and the sentinel timestamps; a mod not in the list only loses
      `g`. The new mods go after the cleared map's keys, in the incoming
      order. */
  lemma MonitoredSpec(mods: OrderedMap<Mod>, newMods: OrderedMap<NewMod>, g: string)
    requires mods.Valid() && newMods.Valid()
    ensures var cleared := RemoveGuild(mods, g);
            var r := Monitored(mods, newMods, g);
              (forall k :: k in r.entries <==> k in cleared.entries || k in newMods.entries) &&
              (forall k :: k in newMods.entries && k in cleared.entries ==>
                 r.entries[k] == cleared.entries[k].(guilds := AddAll(cleared.entries[k].guilds, newMods.entries[k].guilds))) &&
              (forall k :: k in newMods.entries && k !in cleared.entries ==>
                 r.entries[k] == Mod(newMods.entries[k].name, Dedup(newMods.entries[k].guilds), 0, 0)) &&
              (forall k :: k !in newMods.entries && k in cleared.entries ==> r.entries[k] == cleared.entries[k]) &&
              r.keys == cleared.keys + Drop(newMods.keys, cleared.entries.Keys)
  {
    MergeKeysSpec(RemoveGuild(mods, g), newMods, newMods.keys);
    MergeKeysOrder(RemoveGuild(mods, g), newMods, newMods.keys);
  }

  /** `monitorMods` replaces the guild's list rather than adding to it:
      when every incoming entry is for `g` alone, the mods that list `g`
      afterwards are exactly the incoming keys. */
  lemma MonitorReplaces(mods: OrderedMap<Mod>, newMods: OrderedMap<NewMod>, g: string)
    requires mods.Valid() && newMods.Valid()
    requires forall k :: k in newMods.entries ==> newMods.entries[k].guilds == [g]
    ensures var r := Monitored(mods, newMods, g);
              forall k :: (k in r.entries && g in r.entries[k].guilds) <==> k in newMods.entries
  {
    RemoveGuildSpec(mods, g);
    MergeKeysSpec(RemoveGuild(mods, g), newMods, newMods.keys);
  }

  /** No mod is left without guilds when every incoming entry names one. */
  lemma MonitoredWellFormed(mods: OrderedMap<Mod>, newMods: OrderedMap<NewMod>, g: string)
    requires WellFormed(mods) && newMods.Valid()
    requires forall k :: k in newMods.entries ==> newMods.entries[k].guilds != []
    ensures WellFormed(Monitored(mods, newMods, g))
  {
    var cleared := RemoveGuild(mods, g);
    RemoveGuildSpec(mods, g);
    MergeKeysSpec(cleared, newMods, newMods.keys);
    var r := Monitored(mods, newMods, g);
    forall k | k in r.entries
      ensures r.entries[k].guilds != [] && NoDup(r.entries[k].guilds)
    {
      if k in newMods.entries {
        var ng := newMods.entries[k].guilds;
        assert ng[0] in ng;
        if k in cleared.entries {
          AddAllSpec(cleared.entries[k].guilds, ng);
        } else {
          DedupSpec(ng);
        }
      }
    }
  }

  /** Uploading a list again resets the timestamps of a listed mod that no
      other guild monitors: clearing the guild deletes it, and it comes
      back as a new mod. */
  lemma MonitorResetsSoleMod(mods: OrderedMap<Mod>, newMods: OrderedMap<NewMod>, g: string, k: string)
    requires mods.Valid() && newMods.Valid()
    requires k in mods.entries && mods.entries[k].guilds == [g] && k in newMods.entries
    ensures var r := Monitored(mods, newMods, g);
              k in r.entries && r.entries[k].lastChecked == 0 && r.entries[k].lastModified == 0
  {
    RemoveGuildSpec(mods, g);
    assert Without([g], g) == [];
    MergeKeysSpec(RemoveGuild(mods, g), newMods, newMods.keys);
  }
}

=== FILE: registry_prune.dfy ===
/** What `deleteGuild` (modules/mod-manager.js) does to the mod map, as a
    function: each mod loses the guild, and a mod left without guilds is
    deleted. The mod map is walked in its insertion order. */
module Pruning {
  import opened Seqs
  import opened Records
  import opened OrderedMaps

  /** No stored mod is without guilds, and no guild set has repeats. */
  ghost predicate WellFormed(mods: OrderedMap<Mod>) {
    mods.Valid() &&
    forall k :: k in mods.entries ==> mods.entries[k].guilds != [] && NoDup(mods.entries[k].guilds)
  }

  /** One round of the loop of `deleteGuild`, for the mod stored at `k`. */
  function PruneStep(mods: OrderedMap<Mod>, k: string, g: string): (r: OrderedMap<Mod>)
    requires mods.Valid()
    ensures r.Valid()
  {
    if k !in mods.entries then mods
    else
      var m := mods.entries[k];
      var m' := if g in m.guilds then m.(guilds := Without(m.guilds, g)) else m;
      if m'.guilds == [] then Delete(mods, k)
      else if g in m.guilds then Put(mods, k, m')
      else mods
  }

  /** The loop of `deleteGuild` over the keys `ks`. */
  function PruneKeys(mods: OrderedMap<Mod>, ks: seq<string>, g: string): (r: OrderedMap<Mod>)
    requires mods.Valid()
    ensures r.Valid()
    decreases |ks|
  {
    if ks == [] then mods else PruneKeys(PruneStep(mods, ks[0], g), ks[1..], g)
  }

  /** The round for a mod that lists `g`, as the loop body does it:
      first drop the guild, then delete the mod if it is left empty. */
  lemma PruneStepListed(mods: OrderedMap<Mod>, k: string, g: string)
    requires mods.Valid() && k in mods.entries && g in mods.entries[k].guilds
    ensures var m := mods.entries[k].(guilds := Without(mods.entries[k].guilds, g));
              PruneStep(mods, k, g) == if m.guilds == [] then Delete(Put(mods, k, m), k) else Put(mods, k, m)
  {
    var m := mods.entries[k].(guilds := Without(mods.entries[k].guilds, g));
    if m.guilds == [] {
      DeleteAfterPut(mods, k, m);
    }
  }

  /** One round of the loop. */
  lemma PruneKeysStep(mods: OrderedMap<Mod>, ks: seq<string>, g: string, i: nat)
    requires mods.Valid() && i < |ks|
    ensures PruneKeys(mods, ks[i..], g) == PruneKeys(PruneStep(mods, ks[i], g), ks[i + 1..], g)
  {
    assert ks[i..][0] == ks[i] && ks[i..][1..] == ks[i + 1..];
  }

  /** `deleteGuild(g)` on the whole mod map. */
  function RemoveGuild(mods: OrderedMap<Mod>, g: string): (r: OrderedMap<Mod>)
    requires mods.Valid()
    ensures r.Valid()
  {
    PruneKeys(mods, mods.keys, g)
  }

  /** The loop, key by key: a visited mod keeps its entry exactly when it
      has a guild other than `g`, and then loses `g` and nothing else; a
      mod that was not visited is left alone. */
  lemma {:induction false} PruneKeysSpec(mods: OrderedMap<Mod>, ks: seq<string>, g: string)
    requires mods.Valid() && NoDup(ks)
    ensures var r := PruneKeys(mods, ks, g);
              (forall k :: k in ks ==>
                 (k in r.entries <==> k in mods.entries && Without(mods.entries[k].guilds, g) != []) &&
                 (k in r.entries ==> r.entries[k] == mods.entries[k].(guilds := Without(mods.entries[k].guilds, g)))) &&
              (forall k :: k !in ks ==>
                 (k in r.entries <==> k in mods.entries) &&
                 (k in r.entries ==> r.entries[k] == mods.entries[k]))
    decreases |ks|
  {
    if ks != [] {
      var k0 := ks[0];
      var next := PruneStep(mods, k0, g);
      assert NoDup(ks[1..]);
      PruneKeysSpec(next, ks[1..], g);
      if k0 in mods.entries && g !in mods.entries[k0].guilds {
        WithoutAbsent(mods.entries[k0].guilds, g);
      }
      forall k | k in ks
        ensures k == k0 || k in ks[1..]
      {
        if k != k0 {
          var i :| 0 <= i < |ks| && ks[i] == k;
          assert ks[1..][i - 1] == k;
        }
      }
      assert k0 !in ks[1..];
    }
  }

  /** The visited keys whose mod is left without guilds: the ones the loop
      deletes. */
  function Emptied(mods: OrderedMap<Mod>, ks: seq<string>, g: string): set<string> {
    set k | k in ks && k in mods.entries && Without(mods.entries[k].guilds, g) == []
  }

  /** One round changes the order only by deleting an emptied mod, and
      touches no entry but its own. */
  lemma PruneStepKeys(mods: OrderedMap<Mod>, k: string, g: string)
    requires mods.Valid()
    ensures var next := PruneStep(mods, k, g);
              next.keys == (if k in mods.entries && Without(mods.entries[k].guilds, g) == []
                            then Without(mods.keys, k) else mods.keys) &&
              forall k' :: k' != k ==>
                (k' in next.entries <==> k' in mods.entries) &&
                (k' in next.entries ==> next.entries[k'] == mods.entries[k'])
  {
    if k in mods.entries && g !in mods.entries[k].guilds {
      WithoutAbsent(mods.entries[k].guilds, g);
    }
  }

  /** The emptied keys among `ks` depend only on the entries of `ks`. */
  lemma EmptiedFrame(a: OrderedMap<Mod>, b: OrderedMap<Mod>, ks: seq<string>, g: string)
    requires forall k :: k in ks ==>
               (k in a.entries <==> k in b.entries) && (k in a.entries ==> a.entries[k] == b.entries[k])
    ensures Emptied(a, ks, g) == Emptied(b, ks, g)
  {
  }

  /** The emptied keys of `ks`: its first key, if emptied, and those of the rest. */
  lemma EmptiedStep(mods: OrderedMap<Mod>, ks: seq<string>, g: string)
    requires ks != []
    ensures Emptied(mods, ks, g) ==
              Emptied(mods, ks[1..], g) +
              (if ks[0] in mods.entries && Without(mods.entries[ks[0]].guilds, g) == [] then {ks[0]} else {})
  {
    assert forall k :: k in ks <==> k == ks[0] || k in ks[1..];
  }

  /** The order step of `PruneKeysOrder`, apart from the map itself. */
  lemma DropStep(keys: seq<string>, keys': seq<string>, x: string, deleted: bool, rest: set<string>, all: set<string>)
    requires keys' == if deleted then Without(keys, x) else keys
    requires all == rest + (if deleted then {x} else {})
    ensures Drop(keys', rest) == Drop(keys, all)
  {
    if deleted {
      DropWithout(keys, x, rest);
    } else {
      assert all == rest;
    }
  }

  /** The loop deletes keys and never moves or adds one: the key order
      afterwards is the old order without the emptied mods. */
  lemma {:induction false} PruneKeysOrder(mods: OrderedMap<Mod>, ks: seq<string>, g: string)
    requires mods.Valid() && NoDup(ks)
    ensures PruneKeys(mods, ks, g).keys == Drop(mods.keys, Emptied(mods, ks, g))
    decreases |ks|
  {
    if ks == [] {
      assert Emptied(mods, ks, g) == {};
      DropNone(mods.keys);
    } else {
      var k0 := ks[0];
      var next := PruneStep(mods, k0, g);
      assert NoDup(ks[1..]);
      assert k0 !in ks[1..];
      PruneKeysOrder(next, ks[1..], g);
      PruneStepKeys(mods, k0, g);
      EmptiedFrame(next, mods, ks[1..], g);
      EmptiedStep(mods, ks, g);
      DropStep(mods.keys, next.keys, k0, k0 in mods.entries && Without(mods.entries[k0].guilds, g) == [],
               Emptied(mods, ks[1..], g), Emptied(mods, ks, g));
    }
  }

  /** After `deleteGuild(g)` no mod lists `g`; the mods that had another
      guild are still there, changed only in losing `g`, and keep their
      place in the map's order; and if no mod was without guilds before,
      none is after. */
  lemma RemoveGuildSpec(mods: OrderedMap<Mod>, g: string)
    requires mods.Valid()
    ensures var r := RemoveGuild(mods, g);
              (forall k :: k in r.entries ==> g !in r.entries[k].guilds) &&
              (forall k :: k in r.entries <==> k in mods.entries && Without(mods.entries[k].guilds, g) != []) &&
              (forall k :: k in r.entries ==> r.entries[k] == mods.entries[k].(guilds := Without(mods.entries[k].guilds, g))) &&
              r.keys == Drop(mods.keys, Emptied(mods, mods.keys, g)) &&
              (WellFormed(mods) ==> WellFormed(r))
  {
    PruneKeysSpec(mods, mods.keys, g);
    PruneKeysOrder(mods, mods.keys, g);
  }

  /** A mod that does not list `g` comes through `deleteGuild(g)` untouched. */
  lemma RemoveGuildKeepsOthers(mods: OrderedMap<Mod>, g: string, k: string)
    requires WellFormed(mods) && k in mods.entries && g !in mods.entries[k].guilds
    ensures k in RemoveGuild(mods, g).entries && RemoveGuild(mods, g).entries[k] == mods.entries[k]
  {
    RemoveGuildSpec(mods, g);
    WithoutAbsent(mods.entries[k].guilds, g);
  }
}

=== FILE: router.dfy ===
/** The `messageCreate` handler of index.js: which messages the bot answers
    and which command handler, if any, runs. The Discord message is reduced
    to the facts the handler looks at. */
module Router {
  import opened Seqs
  import opened Outcomes

  const ValidCommands: string :=
    "Valid commands: id (DM allowed), info, logs (DM allowed), monitor, notify, disable, version (DM allowed)."

  datatype Command = Id | Version | Logs | Info | Monitor | Notify | Disable

  /** What the handler does with a message. */
  datatype Action = Ignore | Reply(text: string) | Run(command: Command)

  /** `firstUser` is the first mentioned user, if any user is mentioned;
      `mentionsBot` is `message.mentions.has(botId)`; `isDM` is the outcome
      of the code's test `message.channel.type === 'DM'`, whatever the
      channel actually is. */
  datatype Message = Message(fromBot: bool, mentionsBot: bool, firstUser: Option<string>,
                             content: string, fromAdmin: bool, isDM: bool)

  /** The word that names each command. */
  function Name(c: Command): string {
    match c
    case Id => "id"
    case Version => "version"
    case Logs => "logs"
    case Info => "info"
    case Monitor => "monitor"
    case Notify => "notify"
    case Disable => "disable"
  }

  function UnknownCommand(word: string): string {
    "Error: Unknown command: `" + word + "`. " + ValidCommands
  }

  /** The routing: messages from bots, without the bot's mention, or with
      another user mentioned first are ignored; the command is the second
      space-separated word; `id` is for everyone, everything else is for
      admins; when the channel-type test says DM, only `version` and `logs`
      are known besides `id`. */
  function Route(msg: Message, botId: string): (r: Action)
    ensures r.Ignore? <==> msg.fromBot || !msg.mentionsBot || msg.firstUser != Some(botId)
    ensures r.Run? ==> |Split(msg.content, ' ')| > 1 && Name(r.command) == Split(msg.content, ' ')[1]
    ensures r.Run? && r.command != Id ==> msg.fromAdmin
    ensures r.Run? && msg.isDM ==> r.command in {Id, Version, Logs}
    // the other direction: what an addressed message gets
    ensures !r.Ignore? && |Split(msg.content, ' ')| <= 1 ==> r == Reply("Error: No command found. " + ValidCommands)
    ensures !r.Ignore? && |Split(msg.content, ' ')| > 1 ==>
              var w := Split(msg.content, ' ')[1];
              (w == "id" ==> r == Run(Id)) &&
              (w != "id" && !msg.fromAdmin ==> r == Reply("Error: No admin permissions.")) &&
              (msg.fromAdmin && w == "version" ==> r == Run(Version)) &&
              (msg.fromAdmin && w == "logs" ==> r == Run(Logs)) &&
              (msg.fromAdmin && !msg.isDM ==> forall c :: w == Name(c) ==> r == Run(c)) &&
              (msg.fromAdmin && (forall c :: w != Name(c)) ==> r == Reply(UnknownCommand(w))) &&
              (msg.fromAdmin && msg.isDM && w !in {"id", "version", "logs"} ==> r == Reply(UnknownCommand(w)))
  {
    if msg.fromBot || !msg.mentionsBot || msg.firstUser != Some(botId) then Ignore
    else
      var words := Split(msg.content, ' ');
      if |words| <= 1 then Reply("Error: No command found. " + ValidCommands)
      else
        var w := words[1];
        if w == "id" then Run(Id)
        else if !msg.fromAdmin then Reply("Error: No admin permissions.")
        else if w == "version" then Run(Version)
        else if w == "logs" then Run(Logs)
        else if msg.isDM then Reply(UnknownCommand(w))
        else if w == "info" then Run(Info)
        else if w == "monitor" then Run(Monitor)
        else if w == "notify" then Run(Notify)
        else if w == "disable" then Run(Disable)
        else Reply(UnknownCommand(w))
  }

  /** A message addressed to the bot gets the "no command" reply exactly
      when its text holds no space. */
  lemma NoCommandIffNoSpace(msg: Message, botId: string)
    requires !msg.fromBot && msg.mentionsBot && msg.firstUser == Some(botId)
    ensures Route(msg, botId) == Reply("Error: No command found. " + ValidCommands) <==> ' ' !in msg.content
  {
    SplitSingle(msg.content, ' ');
    var words := Split(msg.content, ' ');
    if |words| > 1 {
      var w := words[1];
      assert |"Error: No command found. " + ValidCommands| != |"Error: No admin permissions."|;
      assert ("Error: No command found. " + ValidCommands)[7] != UnknownCommand(w)[7];
    }
  }

  /** A non-admin gets nothing but `id` answered: every other command
      word is refused. */
  lemma NonAdminRefused(msg: Message, botId: string)
    requires !msg.fromBot && msg.mentionsBot && msg.firstUser == Some(botId) && !msg.fromAdmin
    requires |Split(msg.content, ' ')| > 1 && Split(msg.content, ' ')[1] != "id"
    ensures Route(msg, botId) == Reply("Error: No admin permissions.")
  {
  }

  /** The routing ignores the DM flag for `id`, `version` and `logs`. */
  lemma DmCommands(msg: Message, botId: string, c: Command)
    requires !msg.fromBot && msg.mentionsBot && msg.firstUser == Some(botId) && msg.fromAdmin
    requires c in {Id, Version, Logs}
    requires |Split(msg.content, ' ')| > 1 && Split(msg.content, ' ')[1] == Name(c)
    ensures Route(msg, botId) == Run(c)
    ensures Route(msg.(isDM := !msg.isDM), botId) == Run(c)
  {
  }
}

=== FILE: seqs.dfy ===
/** Sequence helpers shared by the model: insertion-ordered sets (the
    behaviour of a JavaScript `Set` built and mutated with `add`/`delete`),
    joining and splitting strings on a separator. */
module Seqs {

  /** No element occurs twice: the shape of a JavaScript `Set` listed in
      insertion order. */
  predicate NoDup(s: seq<string>) {
    forall i, j :: 0 <= i < j < |s| ==> s[i] != s[j]
  }

  /** `s` with every occurrence of `x` removed, order kept (`Set.delete`). */
  function Without(s: seq<string>, x: string): (r: seq<string>)
    ensures forall y :: y in r <==> y in s && y != x
    ensures |r| <= |s|
    ensures NoDup(s) ==> NoDup(r)
  {
    if s == [] then []
    else if s[0] == x then Without(s[1..], x)
    else
      var rest := Without(s[1..], x);
      assert NoDup(s) ==> NoDup([s[0]] + rest) by {
        if NoDup(s) {
          NoDupPrepend(s[0], rest);
        }
      }
      [s[0]] + rest
  }

  /** Deleting an element that is not there changes nothing. */
  lemma {:induction false} WithoutAbsent(s: seq<string>, x: string)
    requires x !in s
    ensures Without(s, x) == s
  {
    if s != [] {
      WithoutAbsent(s[1..], x);
      assert [s[0]] + s[1..] == s;
    }
  }

  /** `s` with the elements of `d` removed, order kept: what is left of a
      key order once the keys in `d` have been deleted. */
  function Drop(s: seq<string>, d: set<string>): (r: seq<string>)
    ensures forall y :: y in r <==> y in s && y !in d
  {
    if s == [] then []
    else if s[0] in d then Drop(s[1..], d)
    else [s[0]] + Drop(s[1..], d)
  }

  /** Dropping nothing keeps the sequence. */
  lemma {:induction false} DropNone(s: seq<string>)
    ensures Drop(s, {}) == s
  {
    if s != [] {
      DropNone(s[1..]);
      assert [s[0]] + s[1..] == s;
    }
  }

  /** Deleting `x` and then dropping `d` is dropping `d` and `x` together. */
  lemma {:induction false} DropWithout(s: seq<string>, x: string, d: set<string>)
    ensures Drop(Without(s, x), d) == Drop(s, d + {x})
  {
    if s != [] {
      DropWithout(s[1..], x, d);
      if s[0] != x {
        assert ([s[0]] + Without(s[1..], x))[1..] == Without(s[1..], x);
      }
    }
  }

  /** Dropping an element that is not there changes nothing. */
  lemma {:induction false} DropAbsent(s: seq<string>, x: string, d: set<string>)
    requires x !in s
    ensures Drop(s, d + {x}) == Drop(s, d)
  {
    if s != [] {
      DropAbsent(s[1..], x, d);
    }
  }

  lemma NoDupPrepend(a: string, r: seq<string>)
    requires a !in r && NoDup(r)
    ensures NoDup([a] + r)
  {
    var s := [a] + r;
    forall i, j | 0 <= i < j < |s| ensures s[i] != s[j] {
      if i == 0 { assert s[j] == r[j - 1]; } else { assert s[i] == r[i - 1] && s[j] == r[j - 1]; }
    }
  }

  /** Add every element of `t`, in order, to the ordered set `s`
      (`t.forEach(set.add, set)`): new elements go to the end. */
  function AddAll(s: seq<string>, t: seq<string>): (r: seq<string>)
    decreases |t|
  {
    if t == [] then s
    else AddAll(if t[0] in s then s else s + [t[0]], t[1..])
  }

  lemma {:induction false} AddAllSpec(s: seq<string>, t: seq<string>)
    ensures forall y :: y in AddAll(s, t) <==> y in s || y in t
    ensures NoDup(s) ==> NoDup(AddAll(s, t))
    ensures |s| <= |AddAll(s, t)| && AddAll(s, t)[..|s|] == s
    decreases |t|
  {
    if t != [] {
      var s' := if t[0] in s then s else s + [t[0]];
      AddAllSpec(s', t[1..]);
      assert AddAll(s', t[1..])[..|s'|][..|s|] == s;
      if NoDup(s) && t[0] !in s {
        assert NoDup(s');
      }
    }
  }

  /** An ordered set built from an array: `new Set(array)`. */
  function Dedup(a: seq<string>): (r: seq<string>) {
    AddAll([], a)
  }

  lemma DedupSpec(a: seq<string>)
    ensures forall y :: y in Dedup(a) <==> y in a
    ensures NoDup(Dedup(a))
  {
    AddAllSpec([], a);
  }

  /** Building a set from an array without repeats and listing it again
      gives the array back: the array-to-Set-to-array round trip. */
  lemma {:induction false} DedupOfNoDup(a: seq<string>)
    requires NoDup(a)
    ensures Dedup(a) == a
  {
    var i := 0;
    while i < |a|
      invariant 0 <= i <= |a|
      invariant AddAll([], a) == AddAll(a[..i], a[i..])
    {
      assert a[i..][0] == a[i] && a[i..][1..] == a[i + 1..];
      assert a[i] !in a[..i];
      assert a[..i] + [a[i]] == a[..i + 1];
      i := i + 1;
    }
    assert a[..|a|] == a && a[|a|..] == [];
  }

  /** Joining with a separator, as JavaScript's `Array.prototype.join`. */
  function Join(parts: seq<string>, sep: string): (r: string)
    ensures parts == [] ==> r == ""
  {
    if parts == [] then ""
    else if |parts| == 1 then parts[0]
    else parts[0] + sep + Join(parts[1..], sep)
  }

  /** Splitting on one character, as JavaScript's `String.prototype.split`
      with a one-character separator: empty pieces are kept and the result
      is never empty. */
  function Split(s: string, c: char): (r: seq<string>)
    ensures |r| >= 1
    ensures forall i :: 0 <= i < |r| ==> c !in r[i]
    decreases |s|
  {
    if s == [] then [""]
    else if s[0] == c then [""] + Split(s[1..], c)
    else var rest := Split(s[1..], c); [[s[0]] + rest[0]] + rest[1..]
  }

  /** Splitting and joining on the same character gives the text back. */
  lemma {:induction false} JoinSplit(s: string, c: char)
    ensures Join(Split(s, c), [c]) == s
    decreases |s|
  {
    if s != [] {
      JoinSplit(s[1..], c);
      var rest := Split(s[1..], c);
      if s[0] != c {
        var r := [[s[0]] + rest[0]] + rest[1..];
        if |rest| == 1 {
          assert Join(r, [c]) == [s[0]] + rest[0];
        } else {
          assert r[1..] == rest[1..];
          assert Join(rest, [c]) == rest[0] + [c] + Join(rest[1..], [c]);
        }
      }
    }
  }

  /** A text splits into a single piece exactly when it holds no separator. */
  lemma {:induction false} SplitSingle(s: string, c: char)
    ensures |Split(s, c)| == 1 <==> c !in s
    decreases |s|
  {
    if s != [] {
      SplitSingle(s[1..], c);
      assert c in s <==> s[0] == c || c in s[1..];
    }
  }
}

=== FILE: spotrep.dfy ===
/** The SpotRep watcher of modules/spotrep-manager.js: one stored
    `lastUpdate` time, the copy of it last written to the cache, and the
    check that broadcasts a new Arma 3 SpotRep post to every subscribed
    guild. Fetching and parsing the feed and the post are inputs. */
module SpotRep {
  import opened Outcomes
  import opened Records
  import opened OrderedMaps
  import opened FanOut

  /** The newest post of the feed: its time, its title line and its link. */
  datatype Feed = Feed(time: int, info: string, link: string)

  /** The feed counts as updated unless its time is strictly before the
      stored time; with no stored time, `moment(undefined)` is the current
      time. */
  function IsUpdate(feedTime: int, lastUpdate: Option<int>, now: int): (r: bool)
    ensures lastUpdate.Some? ==> (r <==> feedTime >= lastUpdate.value)
    ensures lastUpdate.None? ==> (r <==> feedTime >= now)
  {
    var last := if lastUpdate.Some? then lastUpdate.value else now;
    !(feedTime < last)
  }

  /** A post whose time is before the check that broadcast it is not
      broadcast again: the stored time is the check time, not the post's. */
  lemma NotTwice(feedTime: int, now: int, later: int)
    requires feedTime < now
    ensures IsUpdate(feedTime, Some(now), now) == false
    ensures IsUpdate(feedTime, Some(now), later) == false
  {
  }

  class Watcher {
    var lastUpdate: Option<int>
    /** `lastUpdate` as last written to the cache. */
    var saved: Option<int>

    constructor ()
      ensures lastUpdate == None && saved == None
    {
      lastUpdate := None;
      saved := None;
    }

    /** `loadSpotRepFromCache`: the cached time replaces the stored one. */
    method Load(cached: Option<int>)
      modifies this
      ensures lastUpdate == cached && saved == old(saved)
    {
      lastUpdate := cached;
    }

    /** `checkSpotRep`. A feed failure or a feed time before the stored one
        changes nothing. Otherwise the stored time becomes `now` at once; a
        post failure then ends the check unsaved. With the post body, every
        guild of the notification map, in map order, gets the broadcast,
        and the stored time is saved. */
    method CheckSpotRep(feed: Result<Feed>, post: Result<string>, now: int,
                        subs: OrderedMap<Sub>, notes: map<string, string>)
      returns (plan: Plan, didSave: bool)
      requires subs.Valid()
      modifies this
      ensures feed.Err? || !IsUpdate(feed.value.time, old(lastUpdate), now) ==>
                plan == Plan([], Completed) && !didSave && lastUpdate == old(lastUpdate) && saved == old(saved)
      ensures feed.Ok? && IsUpdate(feed.value.time, old(lastUpdate), now) ==>
                lastUpdate == Some(now) && (didSave <==> post.Ok?)
      ensures didSave ==> saved == Some(now)
      ensures !didSave ==> saved == old(saved) && plan == Plan([], Completed)
      ensures didSave ==>
                plan == SpotRepFanOut(subs.keys, subs.entries, notes, feed.value.info, feed.value.link, post.value)
    {
      plan, didSave := Plan([], Completed), false;
      if feed.Err? {
        return;
      }
      var last := if lastUpdate.Some? then lastUpdate.value else now;
      if feed.value.time < last {
        return;
      }
      lastUpdate := Some(now);
      if post.Err? {
        return;
      }
      plan := RunSpotRepFanOut(subs.keys, subs.entries, notes, feed.value.info, feed.value.link, post.value);
      saved := lastUpdate;
      didSave := true;
    }
  }
}

=== FILE: text.dfy ===
/** The small text helpers of modules/util.js: the mention line of a
    notification, the year fix-up of a Steam date, the merge of the rows of
    an uploaded mod list, the `http://` rewrite and the changelog line-end
    normalisation done by the poller. */
module Text {
  import opened Seqs
  import opened Outcomes
  import opened Records
  import opened OrderedMaps
  import Chunker

  // ---------------------------------------------------------------- mentions

  const NoOneToNotify: string := "No members or roles to notify."

  /** `buildNotificationString`: the member and role mentions are given
      already resolved, one per id, in id order. */
  function NotificationString(sub: Option<Sub>, members: seq<string>, roles: seq<string>): (r: string)
    requires sub.Some? ==> |members| == |sub.value.memberIds| && |roles| == |sub.value.roleIds|
    ensures r == NoOneToNotify <==> sub.None? || (sub.value.memberIds == [] && sub.value.roleIds == [])
    ensures r != NoOneToNotify ==> r == "Notifying " + Join(members, " ") + " " + Join(roles, " ")
  {
    if sub.Some? && (|roles| > 0 || |members| > 0) then
      var r := "Notifying " + Join(members, " ") + " " + Join(roles, " ");
      assert r[2] != NoOneToNotify[2];
      r
    else NoOneToNotify
  }

  // ------------------------------------------------------------ date fix-up

  /** The Steam page leaves the year out of dates in the current year:
      a date of exactly four space-separated tokens gets `year` inserted as
      its third token; any other text is left as it is. */
  function FixYear(raw: string, year: string): (r: string)
    ensures |Split(raw, ' ')| != 4 ==> r == raw
    ensures |Split(raw, ' ')| == 4 && ' ' !in year ==>
              var t := Split(raw, ' '); Split(r, ' ') == [t[0], t[1], year, t[2], t[3]]
  {
    var t := Split(raw, ' ');
    if |t| == 4 then
      var parts := t[..2] + [year] + t[2..];
      assert ' ' !in year ==> Split(Join(parts, " "), ' ') == [t[0], t[1], year, t[2], t[3]] by {
        if ' ' !in year {
          assert parts == [t[0], t[1], year, t[2], t[3]];
          SplitJoin(parts, ' ');
        }
      }
      Join(parts, " ")
    else raw
  }

  /** Joining pieces free of the separator and splitting again gives the
      pieces back. */
  lemma {:induction false} SplitJoin(parts: seq<string>, c: char)
    requires |parts| >= 1
    requires forall i :: 0 <= i < |parts| ==> c !in parts[i]
    ensures Split(Join(parts, [c]), c) == parts
  {
    if |parts| == 1 {
      SplitWithout(parts[0], c);
    } else {
      SplitJoin(parts[1..], c);
      SplitAfter(parts[0], Join(parts[1..], [c]), c);
      assert parts[0] + [c] + Join(parts[1..], [c]) == parts[0] + ([c] + Join(parts[1..], [c]));
    }
  }

  lemma {:induction false} SplitWithout(s: string, c: char)
    requires c !in s
    ensures Split(s, c) == [s]
    decreases |s|
  {
    if s != [] {
      SplitWithout(s[1..], c);
      assert s[0] != c;
      assert [s[0]] + s[1..] == s;
    }
  }

  lemma {:induction false} SplitAfter(x: string, y: string, c: char)
    requires c !in x
    ensures Split(x + ([c] + y), c) == [x] + Split(y, c)
    decreases |x|
  {
    if x == [] {
      assert x + ([c] + y) == [c] + y;
      assert ([c] + y)[1..] == y;
    } else {
      SplitAfter(x[1..], y, c);
      var z := x + ([c] + y);
      assert z[0] == x[0] != c;
      assert z[1..] == x[1..] + ([c] + y);
      assert [x[0]] + x[1..] == x;
    }
  }

  /** The last-modified time of a mod page (`parseSteamWorkshopHtml`): a
      missing stats element is an error; the raw text gets its year fixed,
      is parsed, and a time later than `now` is moved back one year, once.
      Date parsing and the calendar are given as `parse` and `yearEarlier`. */
  function LastModified(stats: Option<string>, year: string, parse: string -> int,
                        now: int, yearEarlier: int -> int): (r: Result<int>)
    ensures r.Err? <==> stats.None?
    ensures r.Ok? ==> var t := parse(FixYear(stats.value, year));
              (t <= now ==> r.value == t) && (t > now ==> r.value == yearEarlier(t))
  {
    match stats
    case None => Err("Last modified date not found")
    case Some(raw) =>
      var t := parse(FixYear(raw, year));
      Ok(if t > now then yearEarlier(t) else t)
  }

  // --------------------------------------------------------------- mod rows

  /** `parseModsHtml`: each row is a (link, display name) pair; the rows are
      merged left to right with `Object.assign`, and `reduce` without an
      initial value fails on zero rows. */
  function MergeRows(rows: seq<(string, string)>): (r: Result<OrderedMap<string>>)
    ensures r.Err? <==> rows == []
    ensures r.Ok? ==> r.value.Valid()
    ensures r.Ok? ==> forall k :: k in r.value.entries <==> k in Links(rows)
    ensures r.Ok? ==> forall i :: 0 <= i < |rows| && (forall j :: i < j < |rows| ==> rows[j].0 != rows[i].0) ==>
              r.value.entries[rows[i].0] == rows[i].1
  {
    if rows == [] then Err("Reduce of empty array with no initial value")
    else
      LastWinsKeys(rows);
      LastWinsValues(rows);
      Ok(FromEntries(rows))
  }

  /** The links of the rows, in order. */
  function Links(rows: seq<(string, string)>): (r: seq<string>)
    ensures |r| == |rows| && forall i :: 0 <= i < |rows| ==> r[i] == rows[i].0
  {
    if rows == [] then [] else Links(rows[..|rows| - 1]) + [rows[|rows| - 1].0]
  }

  /** Setting the pairs one after the other keeps the key of every pair. */
  lemma {:induction false} LastWinsKeys(rows: seq<(string, string)>)
    ensures forall k :: k in FromEntries(rows).entries <==> k in Links(rows)
  {
    if rows != [] {
      var n := |rows| - 1;
      LastWinsKeys(rows[..n]);
      assert FromEntries(rows) == Put(FromEntries(rows[..n]), rows[n].0, rows[n].1);
      assert Links(rows) == Links(rows[..n]) + [rows[n].0];
    }
  }

  /** A pair whose key does not come again sets the final value. */
  lemma {:induction false} LastWinsAt(rows: seq<(string, string)>, i: nat)
    requires i < |rows| && forall j :: i < j < |rows| ==> rows[j].0 != rows[i].0
    ensures rows[i].0 in FromEntries(rows).entries && FromEntries(rows).entries[rows[i].0] == rows[i].1
  {
    var n := |rows| - 1;
    assert FromEntries(rows) == Put(FromEntries(rows[..n]), rows[n].0, rows[n].1);
    if i < n {
      assert rows[..n][i] == rows[i];
      LastWinsAt(rows[..n], i);
    }
  }

  /** Each key ends up with the value of its last pair. */
  lemma LastWinsValues(rows: seq<(string, string)>)
    ensures forall i :: 0 <= i < |rows| && (forall j :: i < j < |rows| ==> rows[j].0 != rows[i].0) ==>
              rows[i].0 in FromEntries(rows).entries && FromEntries(rows).entries[rows[i].0] == rows[i].1
  {
    forall i | 0 <= i < |rows| && (forall j :: i < j < |rows| ==> rows[j].0 != rows[i].0)
      ensures rows[i].0 in FromEntries(rows).entries && FromEntries(rows).entries[rows[i].0] == rows[i].1
    {
      LastWinsAt(rows, i);
    }
  }

  // ------------------------------------------------------------ URL rewrite

  /** `s.indexOf(p)`: the first index at which `p` occurs, or -1. */
  function IndexOf(s: string, p: string): (r: int)
    ensures -1 <= r <= |s|
    ensures r >= 0 ==> Chunker.OccursAt(s, p, r)
    ensures forall j :: 0 <= j && (r == -1 || j < r) ==> !Chunker.OccursAt(s, p, j)
  {
    IndexFrom(s, p, 0)
  }

  function IndexFrom(s: string, p: string, i: nat): (r: int)
    requires i <= |s| + 1
    ensures -1 <= r <= |s|
    ensures r >= 0 ==> i <= r && Chunker.OccursAt(s, p, r)
    ensures forall j :: i <= j && (r == -1 || j < r) ==> !Chunker.OccursAt(s, p, j)
    decreases |s| + 1 - i
  {
    if i > |s| then -1
    else if Chunker.OccursAt(s, p, i) then i
    else IndexFrom(s, p, i + 1)
  }

  /** `url.replace('http://', 'https://')` in `downloadFile`: only the first
      occurrence is rewritten; the text before it and after it is kept. */
  function ToHttps(url: string): (r: string)
    ensures IndexOf(url, "http://") == -1 ==> r == url
    ensures IndexOf(url, "http://") >= 0 ==> |r| == |url| + 1
    ensures var i := IndexOf(url, "http://");
              i >= 0 ==> r[..i] == url[..i] && r[i..i + 8] == "https://" && r[i + 8..] == url[i + 7..]
  {
    var i := IndexOf(url, "http://");
    if i == -1 then url else url[..i] + "https://" + url[i + 7..]
  }

  /** Only the first `http://` is rewritten: a second one is left alone. */
  lemma ToHttpsFirstOnly()
    ensures ToHttps("http://a/?u=http://b") == "https://a/?u=http://b"
  {
    var u := "http://a/?u=http://b";
    assert u[0..7] == "http://";
    assert IndexFrom(u, "http://", 0) == 0;
    assert u[..0] + "https://" + u[7..] == "https://a/?u=http://b";
  }

  // ------------------------------------------------------- changelog format

  /** `replaceAll('\n', '\r\n')`: every line feed gets a carriage return in
      front of it. */
  function CrLf(c: string): (r: string)
    ensures forall i :: 0 <= i < |r| && r[i] == '\n' ==> 0 < i && r[i - 1] == '\r'
    ensures c != [] && c[0] != '\n' ==> r != [] && r[0] == c[0]
    decreases |c|
  {
    if c == [] then []
    else
      var rest := CrLf(c[1..]);
      if c[0] == '\n' then
        var r := "\r\n" + rest;
        assert forall i :: 2 <= i < |r| ==> r[i] == rest[i - 2];
        r
      else
        var r := [c[0]] + rest;
        assert forall i :: 1 <= i < |r| ==> r[i] == rest[i - 1];
        r
  }

  /** The reverse rewrite: each "\r\n" becomes "\n" again. */
  function Lf(s: string): string
    decreases |s|
  {
    if |s| >= 2 && s[0] == '\r' && s[1] == '\n' then "\n" + Lf(s[2..])
    else if s == [] then []
    else [s[0]] + Lf(s[1..])
  }

  /** No text is lost by the rewrite: undoing it gives the changelog back. */
  lemma {:induction false} CrLfRoundTrip(c: string)
    ensures Lf(CrLf(c)) == c
    decreases |c|
  {
    if c != [] {
      CrLfRoundTrip(c[1..]);
      var rest := CrLf(c[1..]);
      if c[0] == '\n' {
        assert ("\r\n" + rest)[2..] == rest;
      } else {
        var r := [c[0]] + rest;
        assert r[1..] == rest;
        assert rest != [] ==> rest[0] != '\n';
      }
    }
  }

  /** The changelog as the poller sends it: empty stays empty, anything else
      has its line feeds turned into "\r\n". */
  function NormalizeChangelog(c: string): (r: string)
    ensures forall i :: 0 <= i < |r| && r[i] == '\n' ==> 0 < i && r[i - 1] == '\r'
    ensures c == "" <==> r == ""
    ensures Lf(r) == c
  {
    if c == "" then "" else CrLfRoundTrip(c); CrLf(c)
  }

  /** A chunk as it is sent: wrapped in triple backticks. */
  function Wrap(chunk: string): string {
    "```" + chunk + "```"
  }

  /** Decimal digits of a count, as a template literal prints it. */
  function NatToString(n: nat): (r: string)
    ensures |r| >= 1
    ensures forall i :: 0 <= i < |r| ==> '0' <= r[i] <= '9'
  {
    var d := ['0' + (n % 10) as char];
    if n < 10 then d else NatToString(n / 10) + d
  }
}

=== FILE: views.dfy ===
/** The read side of the mod registry (modules/mod-manager.js): the mods a
    guild monitors, and the conversion of the mod map to and from its
    cached form, in which each guild set is an array. */
module Views {
  import opened Seqs
  import opened Records
  import opened OrderedMaps
  import opened Pruning

  /** The mods stored under the keys `ks` whose guild set contains `g`, in
      the order of `ks`. */
  function ListedFrom(ks: seq<string>, entries: map<string, Mod>, g: string): (r: seq<Mod>)
    requires forall k :: k in ks ==> k in entries
    ensures forall i :: 0 <= i < |r| ==> g in r[i].guilds && r[i] in entries.Values
    ensures forall k :: k in ks && g in entries[k].guilds ==> entries[k] in r
    ensures |r| <= |ks|
    decreases |ks|
  {
    if ks == [] then []
    else
      var rest := ListedFrom(ks[1..], entries, g);
      var m := entries[ks[0]];
      if g in m.guilds then [m] + rest else rest
  }

  /** The listing follows the key order: listing two runs of keys one
      after the other is listing each run and concatenating. */
  lemma {:induction false} ListedFromAppend(ks1: seq<string>, ks2: seq<string>, entries: map<string, Mod>, g: string)
    requires forall k :: k in ks1 + ks2 ==> k in entries
    ensures ListedFrom(ks1 + ks2, entries, g) == ListedFrom(ks1, entries, g) + ListedFrom(ks2, entries, g)
    decreases |ks1|
  {
    if ks1 != [] {
      assert (ks1 + ks2)[0] == ks1[0] && (ks1 + ks2)[1..] == ks1[1..] + ks2;
      ListedFromAppend(ks1[1..], ks2, entries, g);
      var m := entries[ks1[0]];
      var tail := ListedFrom(ks1[1..], entries, g);
      assert ListedFrom(ks1, entries, g) == (if g in m.guilds then [m] else []) + tail;
      assert ListedFrom(ks1 + ks2, entries, g) ==
               (if g in m.guilds then [m] else []) + (tail + ListedFrom(ks2, entries, g));
    } else {
      assert ks1 + ks2 == ks2;
    }
  }

  /** A single key is listed once, exactly when its mod carries the guild. */
  lemma ListedFromOne(k: string, entries: map<string, Mod>, g: string)
    requires k in entries
    ensures ListedFrom([k], entries, g) == if g in entries[k].guilds then [entries[k]] else []
  {
    assert [k][1..] == [];
  }

  /** One round of the listing loop. */
  lemma ListedStep(ks: seq<string>, entries: map<string, Mod>, g: string, i: nat)
    requires i < |ks| && forall k :: k in ks ==> k in entries
    ensures ks[i] in entries
    ensures forall k :: k in ks[i + 1..] ==> k in entries
    ensures ListedFrom(ks[i..], entries, g) ==
              (if g in entries[ks[i]].guilds then [entries[ks[i]]] else []) + ListedFrom(ks[i + 1..], entries, g)
  {
    assert ks[i..][0] == ks[i] && ks[i..][1..] == ks[i + 1..];
  }

  /** `listMods`: the mods of the guild, in the map's insertion order. */
  function Listed(mods: OrderedMap<Mod>, g: string): (r: seq<Mod>)
    requires mods.Valid()
  {
    ListedFrom(mods.keys, mods.entries, g)
  }

  /** The cached entries with every guild array turned back into a set
      (`new Set(array)` in `loadModsFromCache`). */
  function RestoreGuilds(es: seq<(string, Mod)>): (r: seq<(string, Mod)>)
    ensures |r| == |es|
    ensures forall i :: 0 <= i < |r| ==>
              r[i].0 == es[i].0 && r[i].1 == es[i].1.(guilds := Dedup(es[i].1.guilds))
    // each guild list becomes a set: the same guilds, none twice
    ensures forall i :: 0 <= i < |r| ==>
              NoDup(r[i].1.guilds) && forall x :: x in r[i].1.guilds <==> x in es[i].1.guilds
  {
    DedupEach(es);
    seq(|es|, i requires 0 <= i < |es| => (es[i].0, es[i].1.(guilds := Dedup(es[i].1.guilds))))
  }

  lemma DedupEach(es: seq<(string, Mod)>)
    ensures forall i :: 0 <= i < |es| ==>
              NoDup(Dedup(es[i].1.guilds)) && forall x :: x in Dedup(es[i].1.guilds) <==> x in es[i].1.guilds
  {
    forall i | 0 <= i < |es|
      ensures NoDup(Dedup(es[i].1.guilds)) && forall x :: x in Dedup(es[i].1.guilds) <==> x in es[i].1.guilds
    {
      DedupSpec(es[i].1.guilds);
    }
  }

  /** `loadModsFromCache`: the mod map rebuilt from the cached entries. */
  function LoadedMods(es: seq<(string, Mod)>): (r: OrderedMap<Mod>)
    ensures r.Valid()
  {
    FromEntries(RestoreGuilds(es))
  }

  /** Saving the mod map and loading it again gives the same map back,
      keys in the same order: guild sets without repeats survive the trip
      through arrays. */
  lemma SaveLoadRoundTrip(mods: OrderedMap<Mod>)
    requires WellFormed(mods)
    ensures LoadedMods(Entries(mods)) == mods
  {
    var es := Entries(mods);
    forall i | 0 <= i < |es|
      ensures RestoreGuilds(es)[i] == es[i]
    {
      DedupOfNoDup(es[i].1.guilds);
    }
    assert RestoreGuilds(es) == es;
    FromEntriesRoundTrip(mods);
  }
}
